=== FILE: README.md ===
# OWL to SHACL translation of t4v-server, modelled in Dafny

t4v-server turns an OWL 2 ontology into SHACL shapes that drive an editing
form. This project models that translation:

- The reasoned ontology is a value with injected relations (`Ontology.ReasonedGraph`).
  It holds the restrictions, the inferred rdfs:subClassOf and rdf:type triples,
  rdfs:range and rdfs:domain statements, owl:unionOf, owl:equivalentClass and
  owl:oneOf lists.
- `RestrictionCollector` files every restriction under each named class
  below it (getRestrictionsMap).
- `Cardinality` reads min and max cardinalities with the last present
  attribute winning and a 32-bit sentinel (getMinCardinality,
  getMaxCardinality).
- `TypeInference` derives the possible classes, datatypes and enumerated
  values of a restriction (getPossibleClasses, getPossibleDatatypes,
  getPossibleValues, unionOfOrValue).
- `ShortNames` computes the local name used in shape IRIs (getShortName).
- `Synthesis` builds one draft node shape per key. Each draft has one
  property fragment per restriction, and then the domain/range fallback
  fragments (generate).
- `PropertyConstraints` models the merge of fragments that share a path
  (PropertyConstraint: add, the set methods, get).
- `Compression` groups a node shape's fragments by path string and merges
  them (compressShape, compressModel).
- `Naming` adds one sh:name per rdfs:label of the path (addSHACLNames).
- `Ordering` sorts property shapes with the source's comparator and numbers
  them 1..n (applyOrder, orderModel).
- `SortKeys` models the super-class and super-property chains joined with
  " -> " (generateSortKeyMap).
- `Pipeline` composes generate, compressModel, addSHACLNames and orderModel
  as owl2shacl does; owl2shacl's copy of the input ontology into the
  output graph is not part of the output here.

Iteration order matters in three places:

- The iteration order of the restriction map (a Java HashMap) is the
  parameter `keys`.
- Grouping by path keeps the paths in first-seen order.
- Sorting is a stable insertion sort, which is how the source's
  Collections.sort behaves on a consistent comparator.

Java `String.compareTo` is modelled as comparison by code point.

## Model

| member | source | states |
|---|---|---|
| Common.LastIndexIn | server/src/main/java/se/liu/semweb/t4v/owl2shacl/OWL2SHACL.java:459-460 | `lastIndexOf` on a range of the string: the result is a position holding the character with no later position in the range holding it, or one before the range when the character does not occur |
| Common.CompareStrings | server/src/main/java/se/liu/semweb/t4v/owl2shacl/utils/ShapeUtils.java:194 | `String.compareTo` on code points; a definition without a contract of its own, whose order properties are the three lemmas below |
| Common.CompareStringsFlip | server/src/main/java/se/liu/semweb/t4v/owl2shacl/utils/ShapeUtils.java:194 | swapping the two strings flips the sign of compareTo |
| Common.CompareStringsZero | server/src/main/java/se/liu/semweb/t4v/owl2shacl/utils/ShapeUtils.java:194 | compareTo is zero exactly when the strings are equal |
| Common.CompareStringsTransitive | server/src/main/java/se/liu/semweb/t4v/owl2shacl/utils/ShapeUtils.java:194 | compareTo is transitive: a <= b and b <= c give a <= c |
| RestrictionCollector.ApplicableTo | server/src/main/java/se/liu/semweb/t4v/owl2shacl/OWL2SHACL.java:243-246 | a restriction is listed for class c exactly when it is one of the ontology's restrictions and c is a (reasoned) subclass of it |
| RestrictionCollector.FileUnder | server/src/main/java/se/liu/semweb/t4v/owl2shacl/OWL2SHACL.java:246 | computeIfAbsent(...).add: the keys gain the new classes, and each of those gets the restriction appended; other keys keep their lists |
| RestrictionCollector.Collect | server/src/main/java/se/liu/semweb/t4v/owl2shacl/OWL2SHACL.java:240-249 | after any prefix of the restrictions, the keys are the named, non-owl:Nothing classes below some restriction, and each key lists its restrictions in enumeration order |
| RestrictionCollector.CollectStep | server/src/main/java/se/liu/semweb/t4v/owl2shacl/OWL2SHACL.java:242-247 | filing one more restriction keeps the map equal to the per-class lists of applicable restrictions |
| RestrictionCollector.RestrictionsMap | server/src/main/java/se/liu/semweb/t4v/owl2shacl/OWL2SHACL.java:240-249 | the keys are exactly the IRI classes other than owl:Nothing that are subclasses of some restriction; each value is non-empty and holds exactly the restrictions above the key, in order |
| Cardinality.Scan | server/src/main/java/se/liu/semweb/t4v/owl2shacl/OWL2SHACL.java:406-411 | with no attribute present the sentinel is kept; otherwise the value of the last present attribute in scan order is returned |
| Cardinality.MaxCardinalityOf | server/src/main/java/se/liu/semweb/t4v/owl2shacl/OWL2SHACL.java:399-415 | no max attribute gives null; otherwise the last present of maxCardinality, maxQualifiedCardinality, cardinality, qualifiedCardinality, null when that value is Integer.MAX_VALUE |
| Cardinality.MinCardinalityOf | server/src/main/java/se/liu/semweb/t4v/owl2shacl/OWL2SHACL.java:423-440 | no min attribute gives null; otherwise the last present of minCardinality, minQualifiedCardinality, cardinality, qualifiedCardinality, null when that value is Integer.MIN_VALUE |
| Cardinality.ExactCardinalityBoundsBoth | server/src/main/java/se/liu/semweb/t4v/owl2shacl/OWL2SHACL.java:399-440 | an owl:cardinality or owl:qualifiedCardinality alone gives the same minimum and maximum |
| Cardinality.QualifiedCardinalityWins | server/src/main/java/se/liu/semweb/t4v/owl2shacl/OWL2SHACL.java:399-440 | owl:qualifiedCardinality, scanned last, decides both bounds whatever else is present |
| ShortNames.NameStart | server/src/main/java/se/liu/semweb/t4v/owl2shacl/OWL2SHACL.java:458-461 | the cut point: everything after it is free of '/' and '#', and the character before it is one of them |
| ShortNames.ShortName | server/src/main/java/se/liu/semweb/t4v/owl2shacl/OWL2SHACL.java:458-461 | the short name is a suffix of the name containing no '/' or '#', and it is the longest such suffix |
| ShortNames.ShortNameUnique | server/src/main/java/se/liu/semweb/t4v/owl2shacl/OWL2SHACL.java:458-461 | any maximal separator-free suffix is the short name, so the two substring cuts compute exactly that |
| ShortNames.ShortNameOfPlainName | server/src/main/java/se/liu/semweb/t4v/owl2shacl/OWL2SHACL.java:458-461 | a name without '/' or '#' is its own short name |
| ShortNames.ShortNameIdempotent | server/src/main/java/se/liu/semweb/t4v/owl2shacl/OWL2SHACL.java:458-461 | shortening twice is shortening once |
| TypeInference.UnionOfOrValue | server/src/main/java/se/liu/semweb/t4v/owl2shacl/OWL2SHACL.java:336-342 | a node with owl:unionOf yields the union members, any other node yields itself alone |
| TypeInference.RemoveFirst | server/src/main/java/se/liu/semweb/t4v/owl2shacl/OWL2SHACL.java:277-278 | `List.remove`: exactly one occurrence of the element is dropped when there is one (the multiset loses it and the length drops by one), and the list is unchanged otherwise |
| TypeInference.RangeCandidates | server/src/main/java/se/liu/semweb/t4v/owl2shacl/OWL2SHACL.java:277-279 | the property's ranges with one owl:Thing and one rdfs:Resource removed (List.remove drops the first occurrence) |
| TypeInference.RangeCandidatesDropTop | server/src/main/java/se/liu/semweb/t4v/owl2shacl/OWL2SHACL.java:277-279 | when the ranges have no duplicates, neither owl:Thing nor rdfs:Resource survives |
| TypeInference.FromRange | server/src/main/java/se/liu/semweb/t4v/owl2shacl/OWL2SHACL.java:276-287 | the range decides only when exactly one candidate remains; none or several give null |
| TypeInference.FirstQualifier | server/src/main/java/se/liu/semweb/t4v/owl2shacl/OWL2SHACL.java:264-274 | the first attribute that is present and not owl:Thing wins; null when none is |
| TypeInference.PossibleClasses | server/src/main/java/se/liu/semweb/t4v/owl2shacl/OWL2SHACL.java:257-288 | null unless the property is an owl:ObjectProperty; otherwise someValuesFrom, then onClass, then the single range, each expanded through owl:unionOf |
| TypeInference.PossibleDatatypes | server/src/main/java/se/liu/semweb/t4v/owl2shacl/OWL2SHACL.java:296-327 | null unless the property is an owl:DatatypeProperty; otherwise onDataRange, then someValuesFrom, then the single range, each expanded through owl:unionOf |
| TypeInference.AmbiguousRangeGivesNoClass | server/src/main/java/se/liu/semweb/t4v/owl2shacl/OWL2SHACL.java:279-284 | with no qualifier and several ranges, no class is inferred |
| TypeInference.EnumeratedIndividuals | server/src/main/java/se/liu/semweb/t4v/owl2shacl/OWL2SHACL.java:372-378 | exactly the members of the owl:oneOf lists of the classes equivalent to c |
| TypeInference.PossibleValues | server/src/main/java/se/liu/semweb/t4v/owl2shacl/OWL2SHACL.java:351-391 | a value is possible exactly when someValuesFrom is present and its equivalent classes enumerate it; an empty result is null |
| Synthesis.RestrictionFragment | server/src/main/java/se/liu/semweb/t4v/owl2shacl/OWL2SHACL.java:121-174 | the fragment's path, bounds and hasValue come from the restriction; an enumeration gives sh:in and suppresses sh:class but not the datatype; one class or datatype gives sh:class or sh:datatype, several give sh:or, and without several classes or datatypes there is no sh:or |
| Synthesis.SomeValuesFromGivesNoMinimum | server/src/main/java/se/liu/semweb/t4v/owl2shacl/OWL2SHACL.java:131-134 | an owl:someValuesFrom restriction without cardinalities gets no sh:minCount |
| Synthesis.FallbackFragment | server/src/main/java/se/liu/semweb/t4v/owl2shacl/OWL2SHACL.java:211-225 | a fallback fragment exists exactly when some range is an rdfs:Datatype or rdfs:Class; it has sh:datatype exactly when some range is an rdfs:Datatype and sh:class exactly when some range is an rdfs:Class and not an rdfs:Datatype, each holding a range of its kind, so both are set when the ranges hold one of each |
| Synthesis.FallbackFirstRange | server/src/main/java/se/liu/semweb/t4v/owl2shacl/OWL2SHACL.java:215-224 | the sh:datatype and the sh:class of a fallback fragment are the earliest range of their kind in the range listing |
| Synthesis.RestrictionFragments | server/src/main/java/se/liu/semweb/t4v/owl2shacl/OWL2SHACL.java:121-174 | one fragment per restriction, in the key's restriction order |
| Synthesis.KeysOf | server/src/main/java/se/liu/semweb/t4v/owl2shacl/OWL2SHACL.java:117-119 | the keys whose short-name shape IRI is the given IRI; shapes of keys with the same short name coincide |
| Synthesis.AddNodeShape | server/src/main/java/se/liu/semweb/t4v/owl2shacl/OWL2SHACL.java:117-119 | createResource of the short-name IRI with sh:targetClass the key, and the key's fragments appended; a definition without a contract, stated through `Synthesis.RestrictionShapes` and `Synthesis.KeysOf` |
| Synthesis.RestrictionShapes | server/src/main/java/se/liu/semweb/t4v/owl2shacl/OWL2SHACL.java:112-177 | after the first pass every node shape targets its keys, and its fragments are the restriction fragments of those keys in key order |
| Synthesis.FallbackStep | server/src/main/java/se/liu/semweb/t4v/owl2shacl/OWL2SHACL.java:183-225 | one rdfs:domain statement adds a fragment exactly when the property is not built in, the key is a subclass of the domain and its shape has no fragment on that path |
| Synthesis.BuiltIn | server/src/main/java/se/liu/semweb/t4v/owl2shacl/OWL2SHACL.java:188-191 | the property's IRI starts with the RDFS, RDF or OWL namespace; a definition without a contract, used by the fallback lemmas |
| Synthesis.HasPath | server/src/main/java/se/liu/semweb/t4v/owl2shacl/OWL2SHACL.java:199-209 | the ASK query `sh:property/sh:path`: some fragment of the node shape already has that path; a definition without a contract, used by the fallback lemmas |
| Synthesis.FallbacksFor | server/src/main/java/se/liu/semweb/t4v/owl2shacl/OWL2SHACL.java:183-227 | after all domain statements for one key, every qualifying property is on the key's shape, and only justified fragments were appended |
| Synthesis.Fallbacks | server/src/main/java/se/liu/semweb/t4v/owl2shacl/OWL2SHACL.java:179-228 | the second pass only appends justified fallback fragments and covers every qualifying (key, domain statement) pair |
| Synthesis.Generate | server/src/main/java/se/liu/semweb/t4v/owl2shacl/OWL2SHACL.java:108-231 | every key gets a node shape, and each node shape targets exactly the keys that share its IRI |
| Synthesis.GenerateContents | server/src/main/java/se/liu/semweb/t4v/owl2shacl/OWL2SHACL.java:108-231 | the generated graph extends the first pass with justified fallbacks only, and has a fragment for every qualifying domain property |
| PropertyConstraints.SetPath | src/main/java/se/liu/semweb/t4v/owl2shacl/utils/PropertyConstraint.java:42-49 | the path is always replaced (the guard compares the field with itself); nothing else changes |
| PropertyConstraints.SetMinCount | src/main/java/se/liu/semweb/t4v/owl2shacl/utils/PropertyConstraint.java:56-64 | the minimum never decreases, dominates the new value, and is either the old one or the new one |
| PropertyConstraints.SetMaxCount | src/main/java/se/liu/semweb/t4v/owl2shacl/utils/PropertyConstraint.java:71-79 | the maximum is null only if both are, is at most each present value, and is one of the two |
| PropertyConstraints.SetClass | src/main/java/se/liu/semweb/t4v/owl2shacl/utils/PropertyConstraint.java:105-124 | an unset class takes the new one; a set class is replaced only by an equal class or a subclass |
| PropertyConstraints.SetDatatype | src/main/java/se/liu/semweb/t4v/owl2shacl/utils/PropertyConstraint.java:86-98 | the first datatype seen is kept |
| PropertyConstraints.SetValue | src/main/java/se/liu/semweb/t4v/owl2shacl/utils/PropertyConstraint.java:126-136 | the first sh:hasValue seen is kept |
| PropertyConstraints.SetIn | src/main/java/se/liu/semweb/t4v/owl2shacl/utils/PropertyConstraint.java:143-148 | a present sh:in replaces the stored one |
| PropertyConstraints.SetOr | src/main/java/se/liu/semweb/t4v/owl2shacl/utils/PropertyConstraint.java:155-160 | a present sh:or replaces the stored one |
| PropertyConstraints.Add | src/main/java/se/liu/semweb/t4v/owl2shacl/utils/PropertyConstraint.java:26-35 | after add the path is the fragment's, the minimum does not drop, and a datatype is set iff one was stored or offered |
| PropertyConstraints.AddIdempotent | src/main/java/se/liu/semweb/t4v/owl2shacl/utils/PropertyConstraint.java:26-35 | adding the same property shape twice is adding it once |
| PropertyConstraints.Merge | server/src/main/java/se/liu/semweb/t4v/owl2shacl/utils/ShapeUtils.java:92-98 | folding add over the fragments: the path is the last fragment's, and no fragments leave the constraint empty |
| PropertyConstraints.MergeBounds | src/main/java/se/liu/semweb/t4v/owl2shacl/utils/PropertyConstraint.java:56-79 | the merged minCount is max(0, every minimum) and is attained; the merged maxCount is the least maximum, or null when none is given |
| PropertyConstraints.MergeDatatypeFirstSeen | src/main/java/se/liu/semweb/t4v/owl2shacl/utils/PropertyConstraint.java:86-98 | the merged datatype is the first one among the fragments |
| PropertyConstraints.MergeValueFirstSeen | src/main/java/se/liu/semweb/t4v/owl2shacl/utils/PropertyConstraint.java:126-136 | the merged sh:hasValue is the first one among the fragments |
| PropertyConstraints.MergeInLastWins | src/main/java/se/liu/semweb/t4v/owl2shacl/utils/PropertyConstraint.java:143-148 | the merged sh:in is the last one among the fragments |
| PropertyConstraints.MergeOrLastWins | src/main/java/se/liu/semweb/t4v/owl2shacl/utils/PropertyConstraint.java:155-160 | the merged sh:or is the last one among the fragments |
| PropertyConstraints.MergeClassFirstSeen | src/main/java/se/liu/semweb/t4v/owl2shacl/utils/PropertyConstraint.java:105-124 | without subclass pairs the first class seen stays |
| PropertyConstraints.MergeClassMostSpecific | src/main/java/se/liu/semweb/t4v/owl2shacl/utils/PropertyConstraint.java:105-124 | along a chain of successively narrower classes the merge ends on the narrowest |
| PropertyConstraints.MergeClassFromFragments | src/main/java/se/liu/semweb/t4v/owl2shacl/utils/PropertyConstraint.java:105-124 | the merged class is unset iff no fragment has one, and otherwise is some fragment's class |
| PropertyConstraints.MergeBoundsOrderIndependent | src/main/java/se/liu/semweb/t4v/owl2shacl/utils/PropertyConstraint.java:56-79 | the merged bounds do not depend on the order of the fragments |
| PropertyConstraints.TypingOf | src/main/java/se/liu/semweb/t4v/owl2shacl/utils/PropertyConstraint.java:182-198 | exactly one typing constraint is emitted, by precedence sh:hasValue, sh:in, sh:class, sh:datatype, sh:or: each kind appears only when its field is set and every field before it is unset, and none appears when nothing is set |
| PropertyConstraints.Emit | src/main/java/se/liu/semweb/t4v/owl2shacl/utils/PropertyConstraint.java:168-201 | get(): the path and typing of the constraint; no bounds when a value is set, otherwise minCount and the maxCount if present |
| PropertyConstraints.MergedValueDropsBounds | src/main/java/se/liu/semweb/t4v/owl2shacl/utils/PropertyConstraint.java:174-180 | if any fragment has sh:hasValue, the merged shape has that typing and no bounds |
| Compression.Keys | server/src/main/java/se/liu/semweb/t4v/owl2shacl/utils/ShapeUtils.java:88-94 | the distinct path strings of the fragments, each one present |
| Compression.GroupInOrder | server/src/main/java/se/liu/semweb/t4v/owl2shacl/utils/ShapeUtils.java:89-99 | the fragments filed under one key keep the order they have in the node shape, and none with that key is left out, so the first (last) of a group is the first (last) fragment on that path |
| Compression.GroupMembers | server/src/main/java/se/liu/semweb/t4v/owl2shacl/utils/ShapeUtils.java:89-99 | a fragment is in the group iff it is one of the shape's fragments with that path string |
| Compression.Index | server/src/main/java/se/liu/semweb/t4v/owl2shacl/utils/ShapeUtils.java:88-99 | the path-keyed map holds, for every path string, the merge of its group |
| Compression.MergedShape | server/src/main/java/se/liu/semweb/t4v/owl2shacl/utils/ShapeUtils.java:102-106 | the emitted shape for one path string has that path and no names or order yet |
| Compression.CompressShape | server/src/main/java/se/liu/semweb/t4v/owl2shacl/utils/ShapeUtils.java:81-108 | the node shape keeps its first target and holds one merged property shape per distinct path string |
| Compression.CompressShapePaths | server/src/main/java/se/liu/semweb/t4v/owl2shacl/utils/ShapeUtils.java:81-108 | the i-th property shape's path string is the i-th distinct path string |
| Compression.CompressShapeOnePerPath | server/src/main/java/se/liu/semweb/t4v/owl2shacl/utils/ShapeUtils.java:81-108 | no two property shapes of a compressed shape share a path string |
| Compression.CompressShapeCoversFragments | server/src/main/java/se/liu/semweb/t4v/owl2shacl/utils/ShapeUtils.java:81-108 | every fragment's path has a property shape in the result |
| Compression.CompressModel | server/src/main/java/se/liu/semweb/t4v/owl2shacl/utils/ShapeUtils.java:47-54 | the same node shapes, each compressed on its own, with no names or order yet |
| Compression.CompressModelLocal | server/src/main/java/se/liu/semweb/t4v/owl2shacl/utils/ShapeUtils.java:47-54 | a node shape's compression depends on that node shape alone |
| Naming.NameShape | server/src/main/java/se/liu/semweb/t4v/owl2shacl/utils/ShapeUtils.java:168-174 | the names become the old names plus the labels of the path; nothing else changes |
| Naming.NameModel | server/src/main/java/se/liu/semweb/t4v/owl2shacl/utils/ShapeUtils.java:167-175 | every property shape of every node shape is named; targets and the number of shapes are unchanged |
| Naming.NoLabelsNoNames | server/src/main/java/se/liu/semweb/t4v/owl2shacl/utils/ShapeUtils.java:171-173 | a path without labels gets no sh:name |
| Naming.NameModelIdempotent | server/src/main/java/se/liu/semweb/t4v/owl2shacl/utils/ShapeUtils.java:167-175 | adding names twice is adding them once |
| Naming.SortNamed | server/src/main/java/se/liu/semweb/t4v/owl2shacl/utils/ShapeUtils.java:177-197 | for a comparator that does not read names, sorting named shapes is naming sorted shapes |
| Naming.ComparatorsIgnoreNames | server/src/main/java/se/liu/semweb/t4v/owl2shacl/utils/ShapeUtils.java:180-196 | the comparator reads only sh:minCount and sh:path |
| Naming.NamingCommutesWithOrdering | server/src/main/java/se/liu/semweb/t4v/owl2shacl/OWL2SHACL.java:94-95 | naming then ordering, as owl2shacl does, equals ordering then naming |
| Ordering.Insert | server/src/main/java/se/liu/semweb/t4v/owl2shacl/utils/ShapeUtils.java:178 | inserting keeps every element (as a multiset) and adds one |
| Ordering.Sort | server/src/main/java/se/liu/semweb/t4v/owl2shacl/utils/ShapeUtils.java:178-197 | the sort is a permutation of its input |
| Ordering.SortSorted | server/src/main/java/se/liu/semweb/t4v/owl2shacl/utils/ShapeUtils.java:178-197 | for an antisymmetric comparator every adjacent pair of the result is in order |
| Ordering.MinOf | server/src/main/java/se/liu/semweb/t4v/owl2shacl/utils/ShapeUtils.java:182-185 | the sh:minCount the comparator reads, 0 when absent; a definition without a contract |
| Ordering.PathOrder | server/src/main/java/se/liu/semweb/t4v/owl2shacl/utils/ShapeUtils.java:192-194 | compareTo on the string forms of the two paths; a definition without a contract |
| Ordering.CompareAsWritten | server/src/main/java/se/liu/semweb/t4v/owl2shacl/utils/ShapeUtils.java:180-196 | the comparator as written; a definition without a contract, whose behaviour `Ordering.ComparatorsAntisymmetric`, `Ordering.ComparatorsAgree`, `Ordering.AsWrittenMisorders` and `Ordering.AsWrittenNotTransitive` state |
| Ordering.CompareIntended | server/src/main/java/se/liu/semweb/t4v/owl2shacl/utils/ShapeUtils.java:181-196 | the comparator the "Check required" comment describes, required before optional and then by path; a definition without a contract, stated by `Ordering.IntendedTransitive` and `Ordering.RequiredFirst` |
| Ordering.ComparatorsAntisymmetric | server/src/main/java/se/liu/semweb/t4v/owl2shacl/utils/ShapeUtils.java:180-196 | both the comparator as written and the corrected one are antisymmetric |
| Ordering.IntendedTransitive | server/src/main/java/se/liu/semweb/t4v/owl2shacl/utils/ShapeUtils.java:181-195 | the corrected comparator (required first, then path) is transitive |
| Ordering.RequiredFirst | server/src/main/java/se/liu/semweb/t4v/owl2shacl/utils/ShapeUtils.java:181-190 | under the corrected comparator no optional shape precedes a required one |
| Ordering.ComparatorsAgree | server/src/main/java/se/liu/semweb/t4v/owl2shacl/utils/ShapeUtils.java:182-190 | when both minimums are 0 or 1 the comparator as written and the corrected one agree |
| Ordering.SortAgree | server/src/main/java/se/liu/semweb/t4v/owl2shacl/utils/ShapeUtils.java:178-197 | when every minimum is 0 or 1 the two comparators sort identically |
| Ordering.AsWrittenMisorders | server/src/main/java/se/liu/semweb/t4v/owl2shacl/utils/ShapeUtils.java:182-190 | a shape with minCount 2 is sorted after an optional one by the comparator as written, before it by the corrected one |
| Ordering.AsWrittenNotTransitive | server/src/main/java/se/liu/semweb/t4v/owl2shacl/utils/ShapeUtils.java:182-195 | the comparator as written is not transitive: three shapes form a cycle |
| Ordering.Number | server/src/main/java/se/liu/semweb/t4v/owl2shacl/utils/ShapeUtils.java:198-202 | the i-th shape gets sh:order i+1 and is otherwise unchanged |
| Ordering.NumberOrders | server/src/main/java/se/liu/semweb/t4v/owl2shacl/utils/ShapeUtils.java:198-202 | the sh:order values used are exactly 1..n, each once |
| Ordering.OrderShape | server/src/main/java/se/liu/semweb/t4v/owl2shacl/utils/ShapeUtils.java:62-69 | the property shapes are renumbered 1..n; unnumbered input shapes come back as a permutation, and for an antisymmetric comparator no neighbour compares greater |
| Ordering.OrderModel | server/src/main/java/se/liu/semweb/t4v/owl2shacl/utils/ShapeUtils.java:62-71 | every node shape is ordered on its own and no node shape is added or dropped |
| SortKeys.ChainDistinct | server/src/main/java/se/liu/semweb/t4v/owl2shacl/utils/ShapeUtils.java:125-130 | a terminating parent chain never revisits its start |
| SortKeys.Walk | server/src/main/java/se/liu/semweb/t4v/owl2shacl/utils/ShapeUtils.java:125-130 | the key loop, climbing first parents and prefixing each shown ancestor with " -> ", with no result when the climb revisits a node; a definition without a contract, stated by `SortKeys.WalkFollowsChain` and `SortKeys.SortKeyDefinedIffChain` |
| SortKeys.SortKey | server/src/main/java/se/liu/semweb/t4v/owl2shacl/utils/ShapeUtils.java:123-131 | the key of one resource, starting from its toString; a definition without a contract, stated by `SortKeys.SortKeyIsChainKey` and `SortKeys.SortKeyDefinedIffChain` |
| SortKeys.WalkFollowsChain | server/src/main/java/se/liu/semweb/t4v/owl2shacl/utils/ShapeUtils.java:125-130 | the loop prepends each shown ancestor with " -> " along the first-parent chain |
| SortKeys.SortKeyIsChainKey | server/src/main/java/se/liu/semweb/t4v/owl2shacl/utils/ShapeUtils.java:122-132 | the key of a node with a terminating chain is its ancestors, top first, joined with " -> " and ending in the node |
| SortKeys.SortKeyHasChain | server/src/main/java/se/liu/semweb/t4v/owl2shacl/utils/ShapeUtils.java:122-132 | a defined key always comes from a terminating chain |
| SortKeys.SelfParentLoops | server/src/main/java/se/liu/semweb/t4v/owl2shacl/utils/ShapeUtils.java:125-130 | a node that is its own parent never gets a key |
| SortKeys.SortKeyDefinedIffChain | server/src/main/java/se/liu/semweb/t4v/owl2shacl/utils/ShapeUtils.java:125-130 | the loop ends exactly when the first-parent chain reaches a node without a parent |
| SortKeys.RootKey | server/src/main/java/se/liu/semweb/t4v/owl2shacl/utils/ShapeUtils.java:123-131 | a node without a parent is keyed by its own name |
| SortKeys.SkipOnlyAffectsBlanks | server/src/main/java/se/liu/semweb/t4v/owl2shacl/utils/ShapeUtils.java:127 | with only IRI ancestors, class keys and property keys are built alike |
| SortKeys.BlankAncestorSkippedForClasses | server/src/main/java/se/liu/semweb/t4v/owl2shacl/utils/ShapeUtils.java:127-141 | an anonymous ancestor is left out of a class key but kept in a property key |
| SortKeys.PutKeys | server/src/main/java/se/liu/semweb/t4v/owl2shacl/utils/ShapeUtils.java:122-132 | one pass puts every listed node's key, later puts overwrite earlier ones, and it is defined iff every walk ends |
| SortKeys.SortKeyMap | server/src/main/java/se/liu/semweb/t4v/owl2shacl/utils/ShapeUtils.java:118-160 | the keys are the classes and properties; a node that is a property gets its super-property key (properties are put last), a class its super-class key |
| Pipeline.Translate | server/src/main/java/se/liu/semweb/t4v/owl2shacl/OWL2SHACL.java:81-99 | in the output every node shape's property shapes carry sh:order 1..n in list order |
| Pipeline.TranslateSorted | server/src/main/java/se/liu/semweb/t4v/owl2shacl/OWL2SHACL.java:92-95 | every output node shape lists its property shapes in comparator order (sh:order values aside) |
| Pipeline.TranslateAsWrittenSorted | server/src/main/java/se/liu/semweb/t4v/owl2shacl/utils/ShapeUtils.java:177-202 | the translation as written orders every node shape by the comparator as written |
| Pipeline.TranslateShapes | server/src/main/java/se/liu/semweb/t4v/owl2shacl/OWL2SHACL.java:88-95 | every key has a node shape in the output and every node shape targets a key whose shape IRI it is |
| Pipeline.TranslateNamesFromLabels | server/src/main/java/se/liu/semweb/t4v/owl2shacl/OWL2SHACL.java:92-95 | every output property shape is named by exactly the labels of its path |
| Pipeline.CompressClassPair | src/main/java/se/liu/semweb/t4v/owl2shacl/utils/PropertyConstraint.java:105-124 | two sh:class values on one path merge to the second exactly when the subclass test holds for it |
| Pipeline.SubclassIgnoredAsWritten | src/main/java/se/liu/semweb/t4v/owl2shacl/utils/PropertyConstraint.java:109 | as written the narrower class never wins, while the ontology's subclass relation picks it |
| Pipeline.ShapeGraphSubclass | src/main/java/se/liu/semweb/t4v/owl2shacl/utils/PropertyConstraint.java:109 | the subclass test as the shape graph answers it: never, since that graph holds no rdfs:subClassOf triples; a definition without a contract |
| Pipeline.TranslateAsWritten | server/src/main/java/se/liu/semweb/t4v/owl2shacl/OWL2SHACL.java:81-99 | owl2shacl as written: the restriction map of the reasoned graph, no subclass knowledge when sh:class values meet, and the comparator as written; a definition without a contract, stated by `Pipeline.TranslateAsWrittenSorted` and `Pipeline.SubclassIgnoredAsWritten` |
| Pipeline.TranslateIntended | server/src/main/java/se/liu/semweb/t4v/owl2shacl/OWL2SHACL.java:81-99 | owl2shacl as intended: the ontology's subclass relation when sh:class values meet and the corrected comparator; a definition without a contract, stated by `Pipeline.TranslateIntendedRequiredFirst` |
| Pipeline.TranslateIntendedRequiredFirst | server/src/main/java/se/liu/semweb/t4v/owl2shacl/utils/ShapeUtils.java:178-202 | in every node shape of the intended translation no optional property shape comes before a required one |

## Left out

- Reading Turtle, the Jena reasoner (OWL_MEM_MICRO_RULE_INF) and writing Turtle are not modelled. The reasoner's closures are the injected relations of `Ontology.ReasonedGraph`.
- owl2shacl also adds the whole input ontology to the output graph before naming and ordering (OWL2SHACL.java:93). The model's output holds only the node shapes; the ontology's triples are used only as the labels that naming reads.
- The SPARQL ASK in generate ("does the shape already have this path") is modelled as a membership test on the fragments (`Synthesis.HasPath`).
- Logging, `main`, `getInt` parsing of literals, `getValue`, executeSparqlSelect/Ask, the Server classes, Message.java, InferenceEngine.java and script.js are not part of this model.
- Building RDF lists for sh:in and sh:or, and copying the or-items' triples in get(), are not modelled. The lists are values.
- HashMap iteration order is not known. The restriction map is visited in the order `keys`, and compressShape's property shapes are emitted in first-seen path order.
- Compression.CompressShape: compressShape merges the fragments in the order nodeShape.listProperties(sh:property) returns them (ShapeUtils.java:89), which is the graph's storage order and not necessarily the order generate added them in. The model merges in generation order. So the "first seen" of the datatype, class and sh:hasValue merge lemmas and the "last" of the sh:in and sh:or merge lemmas are relative to that order; the source gives no such guarantee when two fragments on one path disagree. The bounds do not depend on the order (`PropertyConstraints.MergeBoundsOrderIndependent`).
- TypeInference.PossibleValues: owl:oneOf lists hold only nodes in the model. getPossibleValues casts every member to a Resource (OWL2SHACL.java:377), so a literal member (the RDF form of an OWL 2 DataOneOf reached through someValuesFrom and owl:equivalentClass) throws ClassCastException and aborts the translation. That error path is not modelled.
- Where the source reads one value of a multi-valued property (getPropertyResourceValue), the model takes the first value.
- Synthesis.FallbackFragment: the source adds every qualifying range to the fallback property shape, one sh:datatype per rdfs:Datatype range and one sh:class per rdfs:Class range (OWL2SHACL.java:215-224). The model keeps only the first range of each kind, which is the one value compressShape's add reads through getPropertyResourceValue under the first-value choice above. The other ranges never reach the output.
- Synthesis.FallbackStep: the fallback property shape's sh:targetClass triple (OWL2SHACL.java:213) is not modelled. compressShape never reads it, so it does not reach the output.
- Synthesis.RestrictionFragment: when both the class and the datatype inference give several alternatives, generate adds two sh:or lists and setOr later reads either one. The model keeps the class alternatives.
- Java strings are UTF-16. The model compares by code point, which differs only for characters outside the Basic Multilingual Plane.
- rdfs:label values are a function from a path to a set of terms, because sh:name triples form a set.
- The commented-out traversal of super-classes in getPossibleValues (OWL2SHACL.java:354-370 and 382-388) is not modelled.
- The rule in the header comment of OWL2SHACL.java (line 22) that owl:someValuesFrom gives sh:minCount 1 is not implemented by the code. `Synthesis.SomeValuesFromGivesNoMinimum` states what the code does.
- generateSortKeyMap is never called by owl2shacl, so `SortKeys.SortKeyMap` stands alone and is not part of `Pipeline.Translate`.
- SortKeys.Walk: the loop in generateSortKeyMap does not terminate on a parent cycle. The model returns None there instead of diverging.
- Ordering.Sort: Collections.sort is a merge sort, which for a non-transitive comparator may order differently from the stable insertion sort modelled here, or throw. The model's order is one of the orders the source could produce.
- Pipeline.Translate: its own contract states only the numbering. The shape, order, naming and merge facts are stated by `Pipeline.TranslateShapes`, `Pipeline.TranslateSorted`, `Pipeline.TranslateNamesFromLabels` and the Compression and PropertyConstraints lemmas.
- Synthesis.Generate: its own contract states only the node shapes and their targets. The fragment facts are in `Synthesis.GenerateContents`.
- TypeInference.RangeCandidatesDropTop: it assumes the ranges have no duplicates, as the reasoner's listObjectsOfProperty returns each object once. With duplicates, List.remove leaves a second owl:Thing.

## Findings

| source | as written | input that shows it | evidently intended | confidence | as-written member | corrected member |
|---|---|---|---|---|---|---|
| server/src/main/java/se/liu/semweb/t4v/owl2shacl/utils/ShapeUtils.java:186-190 | the comparator treats a shape as required only when its minCount is exactly 1, and as optional only when it is exactly 0 | a shape with sh:minCount 2 on path "b" and an optional shape on path "a" are sorted a, b; shapes with minCount 1, 0 and 2 on paths z, a and m form a comparison cycle | required shapes (minCount at least 1) come before optional ones, and the comparator is transitive | not executed | Ordering.AsWrittenMisorders | Ordering.RequiredFirst |
| src/main/java/se/liu/semweb/t4v/owl2shacl/utils/PropertyConstraint.java:109 | setClass asks the generated shapes model whether the new class is a subclass of the stored one, but that model holds no rdfs:subClassOf triples (compressModel runs before the ontology is added at OWL2SHACL.java:92-93) | two restrictions on one property with someValuesFrom A and someValuesFrom B, where B is a subclass of A: the merged shape keeps sh:class A | the narrower class B replaces A | not executed | Pipeline.SubclassIgnoredAsWritten | Pipeline.CompressClassPair |

=== FILE: cardinality.dfy ===
/**
 * Cardinality of one restriction (OWL2SHACL.getMinCardinality and
 * getMaxCardinality). Each scans a fixed list of attributes; every attribute
 * present overwrites the running value, so the last one present in scan
 * order wins. The running value starts at a Java sentinel, and a result equal
 * to the sentinel is reported as absent.
 */
module Cardinality {
  import opened Common
  import opened Ontology

  const MinScan: seq<CardAttr> := [MinCardinality, MinQualifiedCardinality, ExactCardinality, QualifiedCardinality]
  const MaxScan: seq<CardAttr> := [MaxCardinality, MaxQualifiedCardinality, ExactCardinality, QualifiedCardinality]

  /** No attribute of `attrs` is present. */
  ghost predicate NonePresent(cards: map<CardAttr, Int32>, attrs: seq<CardAttr>) {
    forall i :: 0 <= i < |attrs| ==> attrs[i] !in cards
  }

  /** `attrs[i]` is present and no later attribute of `attrs` is. */
  ghost predicate LastPresentAt(cards: map<CardAttr, Int32>, attrs: seq<CardAttr>, i: int) {
    && 0 <= i < |attrs|
    && attrs[i] in cards
    && forall j :: i < j < |attrs| ==> attrs[j] !in cards
  }

  /** The scan loop: start from `start` and let every present attribute overwrite. */
  function Scan(cards: map<CardAttr, Int32>, attrs: seq<CardAttr>, start: Int32): (v: Int32)
    ensures NonePresent(cards, attrs) ==> v == start
    ensures forall i :: LastPresentAt(cards, attrs, i) ==> v == cards[attrs[i]]
  {
    if |attrs| == 0 then start
    else
      var prefix := attrs[..|attrs| - 1];
      var last := attrs[|attrs| - 1];
      var v := Scan(cards, prefix, start);
      assert forall i :: 0 <= i < |prefix| ==> prefix[i] == attrs[i];
      assert forall i :: LastPresentAt(cards, attrs, i) && i < |attrs| - 1 ==> LastPresentAt(cards, prefix, i);
      if last in cards then cards[last] else v
  }

  /**
   * getMaxCardinality: the value of the last present attribute among
   * owl:maxCardinality, owl:maxQualifiedCardinality, owl:cardinality,
   * owl:qualifiedCardinality; absent when none is present or when that value
   * is Integer.MAX_VALUE, the "unset" sentinel.
   */
  function MaxCardinalityOf(r: Restriction): (m: Option<Int32>)
    ensures NonePresent(r.cardinalities, MaxScan) ==> m.None?
    ensures forall i :: LastPresentAt(r.cardinalities, MaxScan, i) ==>
      m == (if r.cardinalities[MaxScan[i]] == MaxInt32 then None else Some(r.cardinalities[MaxScan[i]]))
  {
    var v := Scan(r.cardinalities, MaxScan, MaxInt32);
    if v != MaxInt32 then Some(v) else None
  }

  /**
   * getMinCardinality: the value of the last present attribute among
   * owl:minCardinality, owl:minQualifiedCardinality, owl:cardinality,
   * owl:qualifiedCardinality; absent when none is present or when that value
   * is Integer.MIN_VALUE, the "unset" sentinel.
   */
  function MinCardinalityOf(r: Restriction): (m: Option<Int32>)
    ensures NonePresent(r.cardinalities, MinScan) ==> m.None?
    ensures forall i :: LastPresentAt(r.cardinalities, MinScan, i) ==>
      m == (if r.cardinalities[MinScan[i]] == MinInt32 then None else Some(r.cardinalities[MinScan[i]]))
  {
    var v := Scan(r.cardinalities, MinScan, MinInt32);
    if v != MinInt32 then Some(v) else None
  }

  /**
   * Exact cardinality bounds both sides: a restriction carrying only
   * owl:qualifiedCardinality n (or owl:cardinality n) has min n and max n.
   */
  lemma ExactCardinalityBoundsBoth(r: Restriction, a: CardAttr, n: Int32)
    requires a == ExactCardinality || a == QualifiedCardinality
    requires r.cardinalities == map[a := n]
    requires MinInt32 < n < MaxInt32
    ensures MinCardinalityOf(r) == Some(n) && MaxCardinalityOf(r) == Some(n)
  {
    var i := if a == ExactCardinality then 2 else 3;
    assert LastPresentAt(r.cardinalities, MinScan, i);
    assert LastPresentAt(r.cardinalities, MaxScan, i);
  }

  /**
   * The qualified exact cardinality, last in both scans, overrides any
   * other bound the same restriction states.
   */
  lemma QualifiedCardinalityWins(r: Restriction)
    requires QualifiedCardinality in r.cardinalities
    requires MinInt32 < r.cardinalities[QualifiedCardinality] < MaxInt32
    ensures MinCardinalityOf(r) == Some(r.cardinalities[QualifiedCardinality])
    ensures MaxCardinalityOf(r) == Some(r.cardinalities[QualifiedCardinality])
  {
    assert LastPresentAt(r.cardinalities, MinScan, 3);
    assert LastPresentAt(r.cardinalities, MaxScan, 3);
  }
}

=== FILE: collector.dfy ===
/**
 * Restriction collection (OWL2SHACL.getRestrictionsMap): every named class
 * other than owl:Nothing is mapped to the restrictions it is, per the
 * reasoner, a subclass of.
 */
module RestrictionCollector {
  import opened Common
  import opened Rdf
  import opened Ontology

  /** A resource that may key the map: a subject of the graph that is an IRI and not owl:Nothing. */
  predicate IsKeyCandidate(g: ReasonedGraph, c: Node) {
    c in g.subjects && c.Iri? && c != OwlNothing
  }

  /** The classes one restriction is filed under. */
  function ClassesUnder(g: ReasonedGraph, r: Restriction): set<Node> {
    set c | c in g.subjects && c.Iri? && c != OwlNothing && g.subClassOf(c, r.node)
  }

  /** The restrictions of `rs` that `c` is a subclass of, in the order of `rs`. */
  function ApplicableTo(g: ReasonedGraph, c: Node, rs: seq<Restriction>): (r: seq<Restriction>)
    ensures forall x :: x in r <==> x in rs && g.subClassOf(c, x.node)
  {
    if |rs| == 0 then []
    else
      var last := rs[|rs| - 1];
      ApplicableTo(g, c, rs[..|rs| - 1]) + (if g.subClassOf(c, last.node) then [last] else [])
  }

  /** One step of the loop: append `r` to the list of every class in `cs`, creating missing lists. */
  function FileUnder(m: map<Node, seq<Restriction>>, r: Restriction, cs: set<Node>): (m': map<Node, seq<Restriction>>)
    ensures m'.Keys == m.Keys + cs
    ensures forall c :: c in m' ==> m'[c] == (if c in m then m[c] else []) + (if c in cs then [r] else [])
  {
    map c | c in m.Keys + cs :: (if c in m then m[c] else []) + (if c in cs then [r] else [])
  }

  /** `m` is the restrictions map of the enumeration `rs`. */
  ghost predicate IsMapOf(g: ReasonedGraph, rs: seq<Restriction>, m: map<Node, seq<Restriction>>) {
    && (forall c :: c in m <==> IsKeyCandidate(g, c) && ApplicableTo(g, c, rs) != [])
    && (forall c :: c in m ==> m[c] == ApplicableTo(g, c, rs))
  }

  /** The map built by the loop over `rs`. */
  function Collect(g: ReasonedGraph, rs: seq<Restriction>): (m: map<Node, seq<Restriction>>)
    ensures IsMapOf(g, rs, m)
  {
    if |rs| == 0 then map[]
    else
      var m := Collect(g, rs[..|rs| - 1]);
      CollectLast(g, rs, m);
      FileUnder(m, rs[|rs| - 1], ClassesUnder(g, rs[|rs| - 1]))
  }

  lemma CollectLast(g: ReasonedGraph, rs: seq<Restriction>, m: map<Node, seq<Restriction>>)
    requires |rs| > 0
    requires IsMapOf(g, rs[..|rs| - 1], m)
    ensures IsMapOf(g, rs, FileUnder(m, rs[|rs| - 1], ClassesUnder(g, rs[|rs| - 1])))
  {
    var prefix := rs[..|rs| - 1];
    var last := rs[|rs| - 1];
    assert rs == prefix + [last];
    CollectStep(g, prefix, last, m);
  }

  lemma ApplicableSnoc(g: ReasonedGraph, c: Node, rs: seq<Restriction>, r: Restriction)
    ensures ApplicableTo(g, c, rs + [r]) == ApplicableTo(g, c, rs) + (if g.subClassOf(c, r.node) then [r] else [])
  {
    assert (rs + [r])[..|rs|] == rs;
  }

  /** Filing one more restriction extends the map of a prefix to the map of the longer sequence. */
  lemma CollectStep(g: ReasonedGraph, prefix: seq<Restriction>, last: Restriction, m: map<Node, seq<Restriction>>)
    requires IsMapOf(g, prefix, m)
    ensures IsMapOf(g, prefix + [last], FileUnder(m, last, ClassesUnder(g, last)))
  {
    var m' := FileUnder(m, last, ClassesUnder(g, last));
    forall c
      ensures c in m' <==> IsKeyCandidate(g, c) && ApplicableTo(g, c, prefix + [last]) != []
      ensures c in m' ==> m'[c] == ApplicableTo(g, c, prefix + [last])
    {
      ApplicableSnoc(g, c, prefix, last);
    }
  }

  /**
   * getRestrictionsMap: the keys are exactly the named classes other than
   * owl:Nothing that are a subclass of some restriction, and each key's
   * list holds exactly the restrictions it is a subclass of, in
   * enumeration order.
   */
  function RestrictionsMap(g: ReasonedGraph): (m: map<Node, seq<Restriction>>)
    ensures forall c :: c in m <==> IsKeyCandidate(g, c) && exists x :: x in g.restrictions && g.subClassOf(c, x.node)
    ensures forall c, x :: c in m ==> (x in m[c] <==> x in g.restrictions && g.subClassOf(c, x.node))
    ensures forall c :: c in m ==> |m[c]| > 0 && m[c] == ApplicableTo(g, c, g.restrictions)
  {
    var m := Collect(g, g.restrictions);
    forall c
      ensures ApplicableTo(g, c, g.restrictions) != [] <==> exists x :: x in g.restrictions && g.subClassOf(c, x.node)
    {
      var a := ApplicableTo(g, c, g.restrictions);
      if a != [] {
        assert a[0] in a;
      }
    }
    m
  }
}

=== FILE: common.dfy ===
/**
 * Shared building blocks: an Option type, Java's 32-bit `int` range, and the
 * two string operations of `java.lang.String` the translation relies on
 * (`lastIndexOf` and `compareTo`), stated over Dafny strings.
 */
module Common {

  /** A value that may be absent; stands for a Java reference that may be null. */
  datatype Option<T> = None | Some(value: T)

  const MinInt32: int := -0x8000_0000
  const MaxInt32: int := 0x7fff_ffff

  /** The values of a Java `int`. */
  type Int32 = x: int | -0x8000_0000 <= x <= 0x7fff_ffff

  /**
   * The last position of `c` in `s[lo..hi]`, or `lo - 1` when there is none.
   * `s.lastIndexOf(c)` is the case `lo == 0, hi == |s|`;
   * `s.substring(lo).lastIndexOf(c)` is the result minus `lo`.
   */
  function LastIndexIn(s: string, c: char, lo: nat, hi: nat): (r: int)
    requires lo <= hi <= |s|
    ensures lo - 1 <= r < hi
    ensures lo <= r ==> s[r] == c
    ensures forall i :: r < i < hi ==> s[i] != c
    decreases hi - lo
  {
    if hi == lo then lo - 1
    else if s[hi - 1] == c then hi - 1
    else LastIndexIn(s, c, lo, hi - 1)
  }

  /** No element occurs twice in `ks`. */
  predicate Distinct<K(==)>(ks: seq<K>) {
    forall i, j :: 0 <= i < j < |ks| ==> ks[i] != ks[j]
  }

  /** The elements of `s` that `keep` accepts, in order. */
  function Filter<T(!new)>(s: seq<T>, keep: T -> bool): (r: seq<T>)
    ensures forall x :: x in r <==> x in s && keep(x)
    ensures |r| <= |s|
  {
    if |s| == 0 then []
    else Filter(s[..|s| - 1], keep) + (if keep(s[|s| - 1]) then [s[|s| - 1]] else [])
  }

  /** Filtering distributes over appending one element. */
  lemma FilterSnoc<T(!new)>(s: seq<T>, x: T, keep: T -> bool)
    ensures Filter(s + [x], keep) == Filter(s, keep) + (if keep(x) then [x] else [])
  {
    assert (s + [x])[..|s|] == s;
  }

  /** The first element a filter keeps is the earliest element `keep` accepts. */
  lemma FilterHead<T(!new)>(s: seq<T>, keep: T -> bool)
    ensures |Filter(s, keep)| > 0 ==> exists i :: (0 <= i < |s| && s[i] == Filter(s, keep)[0] && keep(s[i]) &&
      forall j :: 0 <= j < i ==> !keep(s[j]))
  {
    var idx := FilterInOrder(s, keep);
    if |Filter(s, keep)| > 0 {
      var i := idx[0];
      forall j | 0 <= j < |s| && keep(s[j])
        ensures i <= j
      {
        var m :| 0 <= m < |idx| && idx[m] == j;
        if m > 0 {
          assert idx[0] < idx[m];
        }
      }
      assert Filter(s, keep)[0] in Filter(s, keep);
    }
  }

  /** `r` lists elements of `s` taken at the strictly increasing positions `idx`. */
  ghost predicate SelectsInOrder<T>(s: seq<T>, r: seq<T>, idx: seq<int>) {
    && |idx| == |r|
    && (forall k :: 0 <= k < |idx| ==> 0 <= idx[k] < |s| && r[k] == s[idx[k]])
    && (forall k, l :: 0 <= k < l < |idx| ==> idx[k] < idx[l])
  }

  /**
   * Filtering keeps the accepted elements in their order and leaves none
   * out: a position of `s` is selected exactly when `keep` accepts it.
   */
  lemma {:induction false} FilterInOrder<T(!new)>(s: seq<T>, keep: T -> bool) returns (idx: seq<int>)
    ensures SelectsInOrder(s, Filter(s, keep), idx)
    ensures forall i :: 0 <= i < |s| && keep(s[i]) ==> i in idx
  {
    if |s| == 0 {
      idx := [];
    } else {
      var n := |s| - 1;
      var pidx := FilterInOrder(s[..n], keep);
      var take := keep(s[n]);
      SelectsSnoc(s, Filter(s[..n], keep), pidx, take);
      idx := pidx + (if take then [n] else []);
      SelectsAll(s, keep, pidx, take);
    }
  }

  lemma SelectsSnoc<T>(s: seq<T>, r: seq<T>, idx: seq<int>, take: bool)
    requires |s| > 0 && SelectsInOrder(s[..|s| - 1], r, idx)
    ensures SelectsInOrder(s, r + (if take then [s[|s| - 1]] else []), idx + (if take then [|s| - 1] else []))
  {
    var n := |s| - 1;
    var r' := r + (if take then [s[n]] else []);
    var idx' := idx + (if take then [n] else []);
    forall k | 0 <= k < |idx'|
      ensures 0 <= idx'[k] < |s| && r'[k] == s[idx'[k]]
    {
      if k < |idx| {
        assert s[..n][idx[k]] == s[idx[k]];
      }
    }
  }

  lemma SelectsAll<T(!new)>(s: seq<T>, keep: T -> bool, idx: seq<int>, take: bool)
    requires |s| > 0 && take == keep(s[|s| - 1])
    requires forall i :: 0 <= i < |s| - 1 && keep(s[..|s| - 1][i]) ==> i in idx
    ensures forall i :: 0 <= i < |s| && keep(s[i]) ==> i in idx + (if take then [|s| - 1] else [])
  {
    forall i | 0 <= i < |s| && keep(s[i])
      ensures i in idx + (if take then [|s| - 1] else [])
    {
      if i < |s| - 1 {
        assert s[..|s| - 1][i] == s[i];
      }
    }
  }

  /** `s.startsWith(prefix)`. */
  predicate StartsWith(s: string, prefix: string) {
    |prefix| <= |s| && s[..|prefix|] == prefix
  }

  /**
   * `a.compareTo(b)`: the difference of the first pair of characters that
   * differ, or the difference of the lengths when one string is a prefix of
   * the other. Characters are compared by code point.
   */
  function CompareStrings(a: string, b: string): int
  {
    if |a| == 0 || |b| == 0 then |a| - |b|
    else if a[0] != b[0] then a[0] as int - b[0] as int
    else CompareStrings(a[1..], b[1..])
  }

  function Sign(x: int): int {
    if x < 0 then -1 else if x == 0 then 0 else 1
  }

  /** Swapping the arguments of `compareTo` flips the sign of its result. */
  lemma {:induction false} CompareStringsFlip(a: string, b: string)
    ensures Sign(CompareStrings(a, b)) == -Sign(CompareStrings(b, a))
  {
    if |a| == 0 || |b| == 0 {
    } else if a[0] != b[0] {
    } else {
      CompareStringsFlip(a[1..], b[1..]);
    }
  }

  /** `compareTo` returns zero exactly on equal strings. */
  lemma {:induction false} CompareStringsZero(a: string, b: string)
    ensures CompareStrings(a, b) == 0 <==> a == b
  {
    if |a| == 0 || |b| == 0 {
    } else if a[0] != b[0] {
    } else {
      CompareStringsZero(a[1..], b[1..]);
      assert a == [a[0]] + a[1..] && b == [b[0]] + b[1..];
    }
  }

  /** The order `compareTo` induces is transitive. */
  lemma {:induction false} CompareStringsTransitive(a: string, b: string, c: string)
    requires CompareStrings(a, b) <= 0 && CompareStrings(b, c) <= 0
    ensures CompareStrings(a, c) <= 0
  {
    if |a| == 0 || |b| == 0 || |c| == 0 {
    } else if a[0] != b[0] || b[0] != c[0] {
    } else {
      CompareStringsTransitive(a[1..], b[1..], c[1..]);
    }
  }
}

=== FILE: compress.dfy ===
/**
 * Compression of the generated shape graph (ShapeUtils.compressShape and
 * compressModel): within one node shape, the fragments whose sh:path has the
 * same string form are merged into a single property shape; the compressed
 * node shape keeps only its type, one sh:targetClass and the merged
 * property shapes.
 */
module Compression {
  import opened Common
  import opened Rdf
  import opened Shapes
  import opened PropertyConstraints

  /** The key fragments are grouped by: the string form of the path. */
  function PathKey(f: Fragment): string {
    NodeString(f.path)
  }

  /*
   * The grouping below works for any key function; compressShape groups by
   * PathKey.
   */

  /** The distinct keys of `fs`, in order of first occurrence. */
  function Keys<K(==,!new)>(fs: seq<Fragment>, key: Fragment -> K): (ks: seq<K>)
    ensures forall k :: k in ks <==> exists i :: 0 <= i < |fs| && key(fs[i]) == k
    ensures Distinct(ks)
  {
    if |fs| == 0 then []
    else
      var prefix := fs[..|fs| - 1];
      var ks := Keys(prefix, key);
      var k := key(fs[|fs| - 1]);
      assert forall i :: 0 <= i < |prefix| ==> prefix[i] == fs[i];
      if k in ks then ks else ks + [k]
  }

  /** The test that selects the fragments with key `k`. */
  function HasKey<K(==)>(key: Fragment -> K, k: K): Fragment -> bool {
    f => key(f) == k
  }

  /** The fragments of `fs` with key `k`, in order: the bucket of one HashMap key. */
  function Group<K(==,!new)>(fs: seq<Fragment>, key: Fragment -> K, k: K): (gs: seq<Fragment>)
    ensures |gs| <= |fs|
  {
    Filter(fs, HasKey(key, k))
  }

  /** A group holds exactly the fragments with its key. */
  lemma GroupMembers<K(!new)>(fs: seq<Fragment>, key: Fragment -> K, k: K)
    ensures forall f :: f in Group(fs, key, k) <==> f in fs && key(f) == k
  {
  }

  /**
   * A group keeps the fragments in the order they occur in `fs`, and leaves
   * none with its key out: the first (last) fragment of the group is the
   * first (last) fragment with that key.
   */
  lemma GroupInOrder<K(!new)>(fs: seq<Fragment>, key: Fragment -> K, k: K) returns (idx: seq<int>)
    ensures SelectsInOrder(fs, Group(fs, key, k), idx)
    ensures forall i :: 0 <= i < |fs| && key(fs[i]) == k ==> i in idx
  {
    idx := FilterInOrder(fs, HasKey(key, k));
  }

  lemma GroupSnoc<K(!new)>(fs: seq<Fragment>, f: Fragment, key: Fragment -> K, k: K)
    ensures Group(fs + [f], key, k) == Group(fs, key, k) + (if key(f) == k then [f] else [])
  {
    FilterSnoc(fs, f, HasKey(key, k));
  }

  lemma KeysSnoc<K(!new)>(fs: seq<Fragment>, f: Fragment, key: Fragment -> K)
    ensures Keys(fs + [f], key) == Keys(fs, key) + (if key(f) in Keys(fs, key) then [] else [key(f)])
  {
    assert (fs + [f])[..|fs|] == fs;
  }

  /** Where the key of the `j`-th fragment sits among the keys. */
  lemma KeyPosition<K(!new)>(fs: seq<Fragment>, key: Fragment -> K, j: int) returns (i: int)
    requires 0 <= j < |fs|
    ensures 0 <= i < |Keys(fs, key)| && Keys(fs, key)[i] == key(fs[j])
  {
    var ks := Keys(fs, key);
    assert key(fs[j]) in ks;
    i :| 0 <= i < |ks| && ks[i] == key(fs[j]);
  }

  /** A key that no fragment has has an empty group. */
  lemma NoGroup<K(!new)>(fs: seq<Fragment>, key: Fragment -> K, k: K)
    requires k !in Keys(fs, key)
    ensures Group(fs, key, k) == []
  {
  }

  /** Merging one more fragment is adding it to the merge of the others. */
  lemma MergeSnoc(fs: seq<Fragment>, f: Fragment, isSub: (Node, Node) -> bool)
    ensures Merge(fs + [f], isSub) == Add(Merge(fs, isSub), f, isSub)
  {
    assert (fs + [f])[..|fs|] == fs;
  }

  /** `m` maps each key of `fs` to the merge of its group. */
  ghost predicate IsIndexOf<K(!new)>(fs: seq<Fragment>, key: Fragment -> K, isSub: (Node, Node) -> bool, m: map<K, Constraint>) {
    && (forall k :: k in m <==> k in Keys(fs, key))
    && (forall k :: k in m ==> m[k] == Merge(Group(fs, key, k), isSub))
  }

  /**
   * The key-to-constraint map after the loop over `fs`: each fragment is
   * added to the constraint of its key, which is created empty on first use.
   */
  function Index<K(==,!new)>(fs: seq<Fragment>, key: Fragment -> K, isSub: (Node, Node) -> bool): (m: map<K, Constraint>)
    ensures IsIndexOf(fs, key, isSub, m)
  {
    if |fs| == 0 then map[]
    else
      var m := Index(fs[..|fs| - 1], key, isSub);
      var k := key(fs[|fs| - 1]);
      IndexLast(fs, key, isSub, m);
      m[k := Add(if k in m then m[k] else Empty, fs[|fs| - 1], isSub)]
  }

  lemma IndexLast<K(!new)>(fs: seq<Fragment>, key: Fragment -> K, isSub: (Node, Node) -> bool, m: map<K, Constraint>)
    requires |fs| > 0
    requires IsIndexOf(fs[..|fs| - 1], key, isSub, m)
    ensures var k := key(fs[|fs| - 1]);
      IsIndexOf(fs, key, isSub, m[k := Add(if k in m then m[k] else Empty, fs[|fs| - 1], isSub)])
  {
    var prefix := fs[..|fs| - 1];
    var last := fs[|fs| - 1];
    assert fs == prefix + [last];
    IndexStep(prefix, last, key, isSub, m);
  }

  lemma IndexStep<K(!new)>(prefix: seq<Fragment>, last: Fragment, key: Fragment -> K, isSub: (Node, Node) -> bool, m: map<K, Constraint>)
    requires IsIndexOf(prefix, key, isSub, m)
    ensures var k := key(last);
      IsIndexOf(prefix + [last], key, isSub, m[k := Add(if k in m then m[k] else Empty, last, isSub)])
  {
    var k := key(last);
    var c := Add(if k in m then m[k] else Empty, last, isSub);
    var m' := m[k := c];
    IndexStepKeys(prefix, last, key, m, c);
    forall j | j in m'
      ensures m'[j] == Merge(Group(prefix + [last], key, j), isSub)
    {
      IndexStepAt(prefix, last, key, isSub, m, j);
    }
  }

  /** Entering the last fragment's key keeps the map's keys equal to the fragments' keys. */
  lemma IndexStepKeys<K(!new), V>(prefix: seq<Fragment>, last: Fragment, key: Fragment -> K, m: map<K, V>, c: V)
    requires forall k :: k in m <==> k in Keys(prefix, key)
    ensures forall j :: j in m[key(last) := c] <==> j in Keys(prefix + [last], key)
  {
    KeysSnoc(prefix, last, key);
  }

  lemma IndexStepAt<K(!new)>(prefix: seq<Fragment>, last: Fragment, key: Fragment -> K, isSub: (Node, Node) -> bool, m: map<K, Constraint>, j: K)
    requires forall k :: k in m <==> k in Keys(prefix, key)
    requires j in m ==> m[j] == Merge(Group(prefix, key, j), isSub)
    requires j in m || j == key(last)
    ensures var k := key(last);
      m[k := Add(if k in m then m[k] else Empty, last, isSub)][j] == Merge(Group(prefix + [last], key, j), isSub)
  {
    GroupSnoc(prefix, last, key, j);
    if j == key(last) {
      var c0 := if j in m then m[j] else Empty;
      if j !in m {
        NoGroup(prefix, key, j);
      }
      AddToMerged(Group(prefix, key, j), last, isSub, c0);
    } else {
      assert Group(prefix, key, j) + [] == Group(prefix, key, j);
    }
  }

  /** Adding a fragment to the merge of a group merges the extended group. */
  lemma AddToMerged(gs: seq<Fragment>, last: Fragment, isSub: (Node, Node) -> bool, c0: Constraint)
    requires c0 == Merge(gs, isSub)
    ensures Add(c0, last, isSub) == Merge(gs + [last], isSub)
  {
    MergeSnoc(gs, last, isSub);
  }

  /** A present path key has a non-empty group, whose merged path has that key. */
  lemma GroupPath(fs: seq<Fragment>, k: string, isSub: (Node, Node) -> bool)
    requires k in Keys(fs, PathKey)
    ensures |Group(fs, PathKey, k)| > 0
    ensures Merge(Group(fs, PathKey, k), isSub).path.Some?
    ensures NodeString(Merge(Group(fs, PathKey, k), isSub).path.value) == k
  {
    var i :| 0 <= i < |fs| && PathKey(fs[i]) == k;
    GroupMembers(fs, PathKey, k);
    assert fs[i] in Group(fs, PathKey, k);
    var gs := Group(fs, PathKey, k);
    assert gs[|gs| - 1] in gs;
  }

  /** The property shape emitted for path key `k`: the merge of all fragments with that key. */
  function MergedShape(fs: seq<Fragment>, k: string, isSub: (Node, Node) -> bool): (ps: PropertyShape)
    requires k in Keys(fs, PathKey)
    ensures NodeString(ps.path) == k
    ensures ps.names == {} && ps.order.None?
  {
    GroupPath(fs, k, isSub);
    Emit(Merge(Group(fs, PathKey, k), isSub))
  }

  /**
   * compressShape: the node shape keeps its type and one sh:targetClass (the
   * first target), and gets one merged property shape per distinct path
   * key, in order of first occurrence.
   */
  function CompressShape(d: DraftShape, isSub: (Node, Node) -> bool): (n: NodeShape)
    requires |d.targets| > 0
    ensures n.targetClass == d.targets[0]
    ensures var ks := Keys(d.fragments, PathKey);
      && |n.properties| == |ks|
      && forall i :: 0 <= i < |ks| ==> n.properties[i] == MergedShape(d.fragments, ks[i], isSub)
  {
    var m := Index(d.fragments, PathKey, isSub);
    var ks := Keys(d.fragments, PathKey);
    var props := seq(|ks|, i requires 0 <= i < |ks| => IndexedShape(d.fragments, isSub, m, ks[i]));
    NodeShape(d.targets[0], props)
  }

  /** Emitting the indexed constraint of a key is emitting the merge of its group. */
  function IndexedShape(fs: seq<Fragment>, isSub: (Node, Node) -> bool, m: map<string, Constraint>, k: string): (ps: PropertyShape)
    requires IsIndexOf(fs, PathKey, isSub, m) && k in Keys(fs, PathKey)
    ensures ps == MergedShape(fs, k, isSub)
  {
    GroupPath(fs, k, isSub);
    Emit(m[k])
  }

  /** The compressed property shapes carry the path keys in order of first occurrence. */
  lemma CompressShapePaths(d: DraftShape, isSub: (Node, Node) -> bool)
    requires |d.targets| > 0
    ensures var n := CompressShape(d, isSub);
      && |n.properties| == |Keys(d.fragments, PathKey)|
      && forall i :: 0 <= i < |n.properties| ==> NodeString(n.properties[i].path) == Keys(d.fragments, PathKey)[i]
  {
    var n := CompressShape(d, isSub);
    var ks := Keys(d.fragments, PathKey);
    forall i | 0 <= i < |n.properties|
      ensures NodeString(n.properties[i].path) == ks[i]
    {
      assert n.properties[i] == MergedShape(d.fragments, ks[i], isSub);
    }
  }

  /** Compressed property shapes have pairwise different path keys. */
  lemma CompressShapeOnePerPath(d: DraftShape, isSub: (Node, Node) -> bool)
    requires |d.targets| > 0
    ensures var n := CompressShape(d, isSub);
      forall i, j :: 0 <= i < j < |n.properties| ==> NodeString(n.properties[i].path) != NodeString(n.properties[j].path)
  {
    CompressShapePaths(d, isSub);
  }

  /** Every fragment's path key has a compressed property shape. */
  lemma CompressShapeCoversFragments(d: DraftShape, isSub: (Node, Node) -> bool, f: Fragment)
    requires |d.targets| > 0 && f in d.fragments
    ensures var n := CompressShape(d, isSub);
      exists i :: 0 <= i < |n.properties| && NodeString(n.properties[i].path) == PathKey(f)
  {
    CompressShapePaths(d, isSub);
    var j :| 0 <= j < |d.fragments| && d.fragments[j] == f;
    var i := KeyPosition(d.fragments, PathKey, j);
  }

  /** Every node shape of a generated graph has a target. */
  predicate Targeted(sg: ShapeGraph) {
    forall iri :: iri in sg ==> |sg[iri].targets| > 0
  }

  /**
   * compressModel: every node shape of the graph is compressed on its own;
   * the result has the same node shapes.
   */
  function CompressModel(sg: ShapeGraph, isSub: (Node, Node) -> bool): (r: map<string, NodeShape>)
    requires Targeted(sg)
    ensures r.Keys == sg.Keys
    ensures forall iri :: iri in r ==> r[iri] == CompressShape(sg[iri], isSub)
    ensures forall iri, q :: iri in r && q in r[iri].properties ==> q.names == {} && q.order.None?
  {
    var r := map iri | iri in sg :: CompressShape(sg[iri], isSub);
    forall iri, q | iri in r && q in r[iri].properties
      ensures q.names == {} && q.order.None?
    {
      CompressShapeUnnamed(sg[iri], isSub, q);
    }
    r
  }

  /** Property shapes fresh from `get` carry no sh:name and no sh:order yet. */
  lemma CompressShapeUnnamed(d: DraftShape, isSub: (Node, Node) -> bool, q: PropertyShape)
    requires |d.targets| > 0 && q in CompressShape(d, isSub).properties
    ensures q.names == {} && q.order.None?
  {
    var ps := CompressShape(d, isSub).properties;
    var j :| 0 <= j < |ps| && ps[j] == q;
    assert q == MergedShape(d.fragments, Keys(d.fragments, PathKey)[j], isSub);
  }

  /** A node shape's compressed form does not depend on the other node shapes. */
  lemma CompressModelLocal(sg1: ShapeGraph, sg2: ShapeGraph, isSub: (Node, Node) -> bool, iri: string)
    requires Targeted(sg1) && Targeted(sg2)
    requires iri in sg1 && iri in sg2 && sg1[iri] == sg2[iri]
    ensures CompressModel(sg1, isSub)[iri] == CompressModel(sg2, isSub)[iri]
  {
  }
}

=== FILE: constraint.dfy ===
/**
 * Merging the property-shape fragments that share a path into one property
 * shape (PropertyConstraint). A constraint starts empty with sh:minCount 0,
 * absorbs fragments one at a time (`add`), and is finally emitted (`get`).
 * Each field follows its own merge rule: the lower bound keeps the maximum,
 * the upper bound the minimum, sh:datatype and sh:hasValue the first value
 * seen, sh:class a value only replaced by an equal class or a subclass, and
 * sh:in, sh:or and sh:path the last value seen.
 */
module PropertyConstraints {
  import opened Common
  import opened Rdf
  import opened Shapes

  datatype Constraint = Constraint(
    path: Option<Node>,
    cls: Option<Node>,
    dtype: Option<Node>,
    value: Option<Term>,
    minCount: Int32,
    maxCount: Option<Int32>,
    values: Option<set<Node>>,
    alternatives: Option<seq<OrAlt>>)

  /** A fresh constraint: nothing set, sh:minCount 0. */
  const Empty: Constraint := Constraint(None, None, None, None, 0, None, None, None)

  /**
   * setPath: the guard comparing the current path with itself never fires,
   * so the path of the fragment always overwrites.
   */
  function SetPath(c: Constraint, p: Node): (c': Constraint)
    ensures c'.path == Some(p)
    ensures c'.(path := c.path) == c
  {
    if c.path.Some? && c.path.value != c.path.value then c
    else c.(path := Some(p))
  }

  /** setMinCount: the least value that is at least the current one and the fragment's. */
  function SetMinCount(c: Constraint, m: Option<Int32>): (c': Constraint)
    ensures c'.minCount >= c.minCount
    ensures m.Some? ==> c'.minCount >= m.value
    ensures c'.minCount == c.minCount || m == Some(c'.minCount)
    ensures c'.(minCount := c.minCount) == c
  {
    match m
    case None => c
    case Some(n) => if c.minCount < n then c.(minCount := n) else c
  }

  /** setMaxCount: the greatest value that is at most the current one and the fragment's, absent only when both are. */
  function SetMaxCount(c: Constraint, m: Option<Int32>): (c': Constraint)
    ensures c'.maxCount.None? <==> c.maxCount.None? && m.None?
    ensures c'.maxCount.Some? && c.maxCount.Some? ==> c'.maxCount.value <= c.maxCount.value
    ensures c'.maxCount.Some? && m.Some? ==> c'.maxCount.value <= m.value
    ensures c'.maxCount == c.maxCount || c'.maxCount == m
    ensures c'.(maxCount := c.maxCount) == c
  {
    match m
    case None => c
    case Some(n) => if c.maxCount.None? || c.maxCount.value > n then c.(maxCount := Some(n)) else c
  }

  /**
   * setClass: a present class is replaced only by an equal class or a
   * subclass of it, per the subclass relation `isSub` of the graph the
   * fragments live in.
   */
  function SetClass(c: Constraint, x: Option<Node>, isSub: (Node, Node) -> bool): (c': Constraint)
    ensures x.None? || c.cls.None? ==> c'.cls == (if x.Some? then x else c.cls)
    ensures x.Some? && c.cls.Some? ==>
      (c'.cls == x <==> x.value == c.cls.value || isSub(x.value, c.cls.value))
    ensures c'.cls == c.cls || c'.cls == x
    ensures c'.(cls := c.cls) == c
  {
    match x
    case None => c
    case Some(k) =>
      if c.cls.Some? then
        if c.cls.value == k || isSub(k, c.cls.value) then c.(cls := Some(k)) else c
      else c.(cls := Some(k))
  }

  /** setDatatype: the first datatype seen is kept; a different one is only logged. */
  function SetDatatype(c: Constraint, x: Option<Node>): (c': Constraint)
    ensures c.dtype.Some? ==> c'.dtype == c.dtype
    ensures c.dtype.None? ==> c'.dtype == x
    ensures c'.(dtype := c.dtype) == c
  {
    match x
    case None => c
    case Some(d) => if c.dtype.Some? then c else c.(dtype := Some(d))
  }

  /** setValue: the first sh:hasValue seen is kept; a different one is only logged. */
  function SetValue(c: Constraint, x: Option<Term>): (c': Constraint)
    ensures c.value.Some? ==> c'.value == c.value
    ensures c.value.None? ==> c'.value == x
    ensures c'.(value := c.value) == c
  {
    match x
    case None => c
    case Some(v) => if c.value.Some? && c.value.value != v then c else c.(value := Some(v))
  }

  /** setIn: a present sh:in list replaces the current one. */
  function SetIn(c: Constraint, x: Option<set<Node>>): (c': Constraint)
    ensures x.Some? ==> c'.values == x
    ensures x.None? ==> c' == c
    ensures c'.(values := c.values) == c
  {
    if x.Some? then c.(values := x) else c
  }

  /** setOr: a present sh:or list replaces the current one. */
  function SetOr(c: Constraint, x: Option<seq<OrAlt>>): (c': Constraint)
    ensures x.Some? ==> c'.alternatives == x
    ensures x.None? ==> c' == c
    ensures c'.(alternatives := c.alternatives) == c
  {
    if x.Some? then c.(alternatives := x) else c
  }

  /** add: the setters in the order of the source. */
  function Add(c: Constraint, f: Fragment, isSub: (Node, Node) -> bool): (c': Constraint)
    ensures c'.path == Some(f.path)
    ensures c'.minCount >= c.minCount && c'.dtype.Some? == (c.dtype.Some? || f.dtype.Some?)
  {
    var c1 := SetPath(c, f.path);
    var c2 := SetMinCount(c1, f.minCount);
    var c3 := SetMaxCount(c2, f.maxCount);
    var c4 := SetClass(c3, f.cls, isSub);
    var c5 := SetDatatype(c4, f.dtype);
    var c6 := SetValue(c5, f.hasValue);
    var c7 := SetIn(c6, f.values);
    SetOr(c7, f.alternatives)
  }

  /** Adding the same fragment twice is the same as adding it once. */
  lemma AddIdempotent(c: Constraint, f: Fragment, isSub: (Node, Node) -> bool)
    ensures Add(Add(c, f, isSub), f, isSub) == Add(c, f, isSub)
  {
  }

  /** A fresh constraint that absorbs `fs` in order. */
  function Merge(fs: seq<Fragment>, isSub: (Node, Node) -> bool): (c: Constraint)
    ensures |fs| > 0 ==> c.path == Some(fs[|fs| - 1].path)
    ensures |fs| == 0 ==> c == Empty
  {
    if |fs| == 0 then Empty
    else Add(Merge(fs[..|fs| - 1], isSub), fs[|fs| - 1], isSub)
  }

  /**
   * The merged sh:minCount is the largest of 0 and the fragments' minimum
   * counts; the merged sh:maxCount is the smallest of the fragments' maximum
   * counts, absent when none states one.
   */
  lemma {:induction false} MergeBounds(fs: seq<Fragment>, isSub: (Node, Node) -> bool)
    ensures var c := Merge(fs, isSub);
      && c.minCount >= 0
      && (forall i :: 0 <= i < |fs| && fs[i].minCount.Some? ==> c.minCount >= fs[i].minCount.value)
      && (c.minCount == 0 || exists i :: 0 <= i < |fs| && fs[i].minCount == Some(c.minCount))
      && (c.maxCount.None? <==> forall i :: 0 <= i < |fs| ==> fs[i].maxCount.None?)
      && (forall i :: 0 <= i < |fs| && fs[i].maxCount.Some? ==> c.maxCount.Some? && c.maxCount.value <= fs[i].maxCount.value)
      && (c.maxCount.Some? ==> exists i :: 0 <= i < |fs| && fs[i].maxCount == c.maxCount)
  {
    if |fs| > 0 {
      var prefix := fs[..|fs| - 1];
      MergeBounds(prefix, isSub);
      assert forall i :: 0 <= i < |prefix| ==> prefix[i] == fs[i];
    }
  }

  // ---------------------------------------------------------------------
  // Reference definitions of the field-wise merge rules
  // ---------------------------------------------------------------------

  /** The first present entry. */
  function FirstSome<T>(s: seq<Option<T>>): Option<T> {
    if |s| == 0 then None
    else if s[0].Some? then s[0]
    else FirstSome(s[1..])
  }

  /** The last present entry. */
  function LastSome<T>(s: seq<Option<T>>): Option<T> {
    if |s| == 0 then None
    else match LastSome(s[1..])
      case Some(x) => Some(x)
      case None => s[0]
  }

  function Datatypes(fs: seq<Fragment>): seq<Option<Node>>
  {
    seq(|fs|, i requires 0 <= i < |fs| => fs[i].dtype)
  }

  function Classes(fs: seq<Fragment>): seq<Option<Node>>
  {
    seq(|fs|, i requires 0 <= i < |fs| => fs[i].cls)
  }

  function HasValues(fs: seq<Fragment>): seq<Option<Term>>
  {
    seq(|fs|, i requires 0 <= i < |fs| => fs[i].hasValue)
  }

  function InLists(fs: seq<Fragment>): seq<Option<set<Node>>>
  {
    seq(|fs|, i requires 0 <= i < |fs| => fs[i].values)
  }

  function OrLists(fs: seq<Fragment>): seq<Option<seq<OrAlt>>>
  {
    seq(|fs|, i requires 0 <= i < |fs| => fs[i].alternatives)
  }

  /** FirstSome of a sequence extended at the end. */
  lemma {:induction false} FirstSomeSnoc<T>(s: seq<Option<T>>, x: Option<T>)
    ensures FirstSome(s + [x]) == if FirstSome(s).Some? then FirstSome(s) else x
  {
    if |s| > 0 {
      assert (s + [x])[1..] == s[1..] + [x];
      FirstSomeSnoc(s[1..], x);
    }
  }

  /** LastSome of a sequence extended at the end. */
  lemma {:induction false} LastSomeSnoc<T>(s: seq<Option<T>>, x: Option<T>)
    ensures LastSome(s + [x]) == if x.Some? then x else LastSome(s)
  {
    if |s| == 0 {
      assert [x][1..] == [];
    } else {
      assert (s + [x])[1..] == s[1..] + [x];
      LastSomeSnoc(s[1..], x);
    }
  }

  /** sh:datatype: the merged value is the first datatype of any fragment. */
  lemma {:induction false} MergeDatatypeFirstSeen(fs: seq<Fragment>, isSub: (Node, Node) -> bool)
    ensures Merge(fs, isSub).dtype == FirstSome(Datatypes(fs))
  {
    if |fs| > 0 {
      var prefix := fs[..|fs| - 1];
      MergeDatatypeFirstSeen(prefix, isSub);
      assert Datatypes(fs) == Datatypes(prefix) + [fs[|fs| - 1].dtype];
      FirstSomeSnoc(Datatypes(prefix), fs[|fs| - 1].dtype);
    }
  }

  /** sh:hasValue: the merged value is the first value of any fragment. */
  lemma {:induction false} MergeValueFirstSeen(fs: seq<Fragment>, isSub: (Node, Node) -> bool)
    ensures Merge(fs, isSub).value == FirstSome(HasValues(fs))
  {
    if |fs| > 0 {
      var prefix := fs[..|fs| - 1];
      MergeValueFirstSeen(prefix, isSub);
      assert HasValues(fs) == HasValues(prefix) + [fs[|fs| - 1].hasValue];
      FirstSomeSnoc(HasValues(prefix), fs[|fs| - 1].hasValue);
    }
  }

  /** sh:in: the merged list is the last list of any fragment. */
  lemma {:induction false} MergeInLastWins(fs: seq<Fragment>, isSub: (Node, Node) -> bool)
    ensures Merge(fs, isSub).values == LastSome(InLists(fs))
  {
    if |fs| > 0 {
      var prefix := fs[..|fs| - 1];
      MergeInLastWins(prefix, isSub);
      assert InLists(fs) == InLists(prefix) + [fs[|fs| - 1].values];
      LastSomeSnoc(InLists(prefix), fs[|fs| - 1].values);
    }
  }

  /** sh:or: the merged list is the last list of any fragment. */
  lemma {:induction false} MergeOrLastWins(fs: seq<Fragment>, isSub: (Node, Node) -> bool)
    ensures Merge(fs, isSub).alternatives == LastSome(OrLists(fs))
  {
    if |fs| > 0 {
      var prefix := fs[..|fs| - 1];
      MergeOrLastWins(prefix, isSub);
      assert OrLists(fs) == OrLists(prefix) + [fs[|fs| - 1].alternatives];
      LastSomeSnoc(OrLists(prefix), fs[|fs| - 1].alternatives);
    }
  }

  /** sh:class, when no class is a subclass of another: the first class seen is kept. */
  lemma {:induction false} MergeClassFirstSeen(fs: seq<Fragment>, isSub: (Node, Node) -> bool)
    requires forall x, y :: !isSub(x, y)
    ensures Merge(fs, isSub).cls == FirstSome(Classes(fs))
  {
    if |fs| > 0 {
      var prefix := fs[..|fs| - 1];
      MergeClassFirstSeen(prefix, isSub);
      assert Classes(fs) == Classes(prefix) + [fs[|fs| - 1].cls];
      FirstSomeSnoc(Classes(prefix), fs[|fs| - 1].cls);
    }
  }

  /**
   * sh:class, when each fragment's class is a subclass of the one before:
   * the most specific (last) class is kept.
   */
  lemma {:induction false} MergeClassMostSpecific(fs: seq<Fragment>, isSub: (Node, Node) -> bool)
    requires forall i :: 0 <= i < |fs| ==> fs[i].cls.Some?
    requires forall i :: 0 < i < |fs| ==> isSub(fs[i].cls.value, fs[i - 1].cls.value)
    ensures |fs| > 0 ==> Merge(fs, isSub).cls == fs[|fs| - 1].cls
  {
    if |fs| > 1 {
      MergeClassMostSpecific(fs[..|fs| - 1], isSub);
    }
  }

  /** The merged class is always the class of some fragment, and absent only when none has one. */
  lemma {:induction false} MergeClassFromFragments(fs: seq<Fragment>, isSub: (Node, Node) -> bool)
    ensures Merge(fs, isSub).cls.None? <==> forall i :: 0 <= i < |fs| ==> fs[i].cls.None?
    ensures Merge(fs, isSub).cls.Some? ==> exists i :: 0 <= i < |fs| && fs[i].cls == Merge(fs, isSub).cls
  {
    if |fs| > 0 {
      var prefix := fs[..|fs| - 1];
      MergeClassFromFragments(prefix, isSub);
      assert forall i :: 0 <= i < |prefix| ==> prefix[i] == fs[i];
    }
  }

  /**
   * The merged bounds depend only on which fragments are merged, not on
   * their order: sh:minCount and sh:maxCount are the same for any
   * rearrangement.
   */
  lemma MergeBoundsOrderIndependent(fs: seq<Fragment>, gs: seq<Fragment>, isSub: (Node, Node) -> bool)
    requires multiset(fs) == multiset(gs)
    ensures Merge(fs, isSub).minCount == Merge(gs, isSub).minCount
    ensures Merge(fs, isSub).maxCount == Merge(gs, isSub).maxCount
  {
    MinCountBelow(fs, gs, isSub);
    MinCountBelow(gs, fs, isSub);
    MaxCountAbove(fs, gs, isSub);
    MaxCountAbove(gs, fs, isSub);
  }

  lemma MinCountBelow(fs: seq<Fragment>, gs: seq<Fragment>, isSub: (Node, Node) -> bool)
    requires multiset(fs) == multiset(gs)
    ensures Merge(fs, isSub).minCount <= Merge(gs, isSub).minCount
  {
    MergeBounds(fs, isSub);
    MergeBounds(gs, isSub);
    var a := Merge(fs, isSub).minCount;
    if a != 0 {
      var i :| 0 <= i < |fs| && fs[i].minCount == Some(a);
      assert fs[i] in multiset(gs);
      var j :| 0 <= j < |gs| && gs[j] == fs[i];
    }
  }

  lemma MaxCountAbove(fs: seq<Fragment>, gs: seq<Fragment>, isSub: (Node, Node) -> bool)
    requires multiset(fs) == multiset(gs)
    ensures Merge(gs, isSub).maxCount.Some? ==> Merge(fs, isSub).maxCount.Some? && Merge(fs, isSub).maxCount.value <= Merge(gs, isSub).maxCount.value
  {
    MergeBounds(fs, isSub);
    MergeBounds(gs, isSub);
    var b := Merge(gs, isSub).maxCount;
    if b.Some? {
      var j :| 0 <= j < |gs| && gs[j].maxCount == b;
      assert gs[j] in multiset(fs);
      var i :| 0 <= i < |fs| && fs[i] == gs[j];
    }
  }

  // ---------------------------------------------------------------------
  // get(): the emitted property shape
  // ---------------------------------------------------------------------

  /** The single typing constraint kept, by precedence sh:hasValue, sh:in, sh:class, sh:datatype, sh:or. */
  function TypingOf(c: Constraint): (t: Typing)
    ensures t.Untyped? <==> c.value.None? && c.values.None? && c.cls.None? && c.dtype.None? && c.alternatives.None?
    ensures c.value.Some? ==> t == HasValue(c.value.value)
    ensures t.HasValue? ==> c.value == Some(t.value)
    ensures t.In? ==> c.value.None? && c.values == Some(t.values)
    ensures t.ClassIs? ==> c.value.None? && c.values.None? && c.cls == Some(t.cls)
    ensures t.DatatypeIs? ==> c.value.None? && c.values.None? && c.cls.None? && c.dtype == Some(t.dtype)
    ensures t.Or? ==> c.value.None? && c.values.None? && c.cls.None? && c.dtype.None? && c.alternatives == Some(t.alternatives)
  {
    if c.value.Some? then HasValue(c.value.value)
    else if c.values.Some? then In(c.values.value)
    else if c.cls.Some? then ClassIs(c.cls.value)
    else if c.dtype.Some? then DatatypeIs(c.dtype.value)
    else if c.alternatives.Some? then Or(c.alternatives.value)
    else Untyped
  }

  /**
   * get: the merged property shape. With an sh:hasValue there are no bounds;
   * otherwise sh:minCount is always stated and sh:maxCount when present.
   */
  function Emit(c: Constraint): (ps: PropertyShape)
    requires c.path.Some?
    ensures ps.path == c.path.value && ps.typing == TypingOf(c)
    ensures c.value.Some? ==> ps.minCount.None? && ps.maxCount.None?
    ensures c.value.None? ==> ps.minCount == Some(c.minCount) && ps.maxCount == c.maxCount
    ensures ps.names == {} && ps.order.None?
  {
    var bounded := c.value.None?;
    PropertyShape(
      path := c.path.value,
      minCount := if bounded then Some(c.minCount) else None,
      maxCount := if bounded then c.maxCount else None,
      typing := TypingOf(c),
      names := {},
      order := None)
  }

  /** A merged shape keeps its sh:hasValue whenever any fragment has one, and then carries no bounds. */
  lemma {:induction false} MergedValueDropsBounds(fs: seq<Fragment>, isSub: (Node, Node) -> bool, i: int)
    requires 0 <= i < |fs| && fs[i].hasValue.Some?
    ensures Merge(fs, isSub).value.Some?
    ensures var ps := Emit(Merge(fs, isSub)); ps.typing.HasValue? && ps.minCount.None? && ps.maxCount.None?
  {
    MergeValueFirstSeen(fs, isSub);
    FirstSomeFound(HasValues(fs), i);
  }

  lemma {:induction false} FirstSomeFound<T>(s: seq<Option<T>>, i: int)
    requires 0 <= i < |s| && s[i].Some?
    ensures FirstSome(s).Some?
  {
    if i > 0 && s[0].None? {
      FirstSomeFound(s[1..], i - 1);
    }
  }
}

=== FILE: names.dfy ===
/**
 * Naming of property shapes (ShapeUtils.addSHACLNames): every property
 * shape gets one sh:name per rdfs:label of its path. Labels come from the
 * input ontology, which is added to the shape graph before naming.
 */
module Naming {
  import opened Common
  import opened Rdf
  import opened Shapes
  import opened Ordering

  /** The labels of `p`'s path become its sh:name values; nothing else changes. */
  function NameShape(p: PropertyShape, labels: Node -> set<Term>): (r: PropertyShape)
    ensures forall t :: t in r.names <==> t in p.names || t in labels(p.path)
    ensures r.(names := p.names) == p
  {
    p.(names := p.names + labels(p.path))
  }

  function NameShapes(s: seq<PropertyShape>, labels: Node -> set<Term>): seq<PropertyShape>
  {
    seq(|s|, i requires 0 <= i < |s| => NameShape(s[i], labels))
  }

  /** addSHACLNames over the whole shape graph: every property shape of every node shape is named. */
  function NameModel(m: map<string, NodeShape>, labels: Node -> set<Term>): (r: map<string, NodeShape>)
    ensures r.Keys == m.Keys
    ensures forall iri :: iri in r ==>
      r[iri].targetClass == m[iri].targetClass && r[iri].properties == NameShapes(m[iri].properties, labels)
  {
    map iri | iri in m :: NodeShape(m[iri].targetClass, NameShapes(m[iri].properties, labels))
  }

  /** A path without labels adds no name. */
  lemma NoLabelsNoNames(p: PropertyShape, labels: Node -> set<Term>)
    requires labels(p.path) == {}
    ensures NameShape(p, labels) == p
  {
  }

  /** Adding the same sh:name statements again changes nothing. */
  lemma NameModelIdempotent(m: map<string, NodeShape>, labels: Node -> set<Term>)
    ensures NameModel(NameModel(m, labels), labels) == NameModel(m, labels)
  {
    var once := NameModel(m, labels);
    var twice := NameModel(once, labels);
    forall iri | iri in m
      ensures twice[iri] == once[iri]
    {
      var s := m[iri].properties;
      assert NameShapes(NameShapes(s, labels), labels) == NameShapes(s, labels);
    }
  }

  lemma NameShapesSnoc(s: seq<PropertyShape>, x: PropertyShape, labels: Node -> set<Term>)
    ensures NameShapes(s + [x], labels) == NameShapes(s, labels) + [NameShape(x, labels)]
  {
  }

  lemma NameShapesPrefix(s: seq<PropertyShape>, labels: Node -> set<Term>)
    requires |s| > 0
    ensures NameShapes(s, labels)[..|s| - 1] == NameShapes(s[..|s| - 1], labels)
  {
  }

  /** Inserting a named shape into named shapes is naming after inserting. */
  lemma {:induction false} InsertNamed(s: seq<PropertyShape>, x: PropertyShape, cmp: Comparator, labels: Node -> set<Term>)
    requires forall a, b :: cmp(NameShape(a, labels), NameShape(b, labels)) == cmp(a, b)
    ensures Insert(NameShapes(s, labels), NameShape(x, labels), cmp) == NameShapes(Insert(s, x, cmp), labels)
  {
    if |s| > 0 {
      var prefix := s[..|s| - 1];
      var last := s[|s| - 1];
      NameShapesPrefix(s, labels);
      InsertNamed(prefix, x, cmp, labels);
      if cmp(last, x) > 0 {
        NameShapesSnoc(Insert(prefix, x, cmp), last, labels);
      } else {
        NameShapesSnoc(s, x, labels);
      }
    }
  }

  /** Sorting named shapes is naming sorted shapes, for a comparator that does not read names. */
  lemma {:induction false} SortNamed(s: seq<PropertyShape>, cmp: Comparator, labels: Node -> set<Term>)
    requires forall a, b :: cmp(NameShape(a, labels), NameShape(b, labels)) == cmp(a, b)
    ensures Sort(NameShapes(s, labels), cmp) == NameShapes(Sort(s, cmp), labels)
  {
    if |s| > 0 {
      var prefix := s[..|s| - 1];
      NameShapesPrefix(s, labels);
      SortNamed(prefix, cmp, labels);
      InsertNamed(Sort(prefix, cmp), s[|s| - 1], cmp, labels);
    }
  }

  /** Neither comparator reads sh:name. */
  lemma ComparatorsIgnoreNames(labels: Node -> set<Term>)
    ensures forall a, b :: CompareAsWritten(NameShape(a, labels), NameShape(b, labels)) == CompareAsWritten(a, b)
    ensures forall a, b :: CompareIntended(NameShape(a, labels), NameShape(b, labels)) == CompareIntended(a, b)
  {
  }

  /** Ordering one named node shape is naming the ordered node shape. */
  lemma OrderNamedShape(n: NodeShape, cmp: Comparator, labels: Node -> set<Term>)
    requires forall a, b :: cmp(NameShape(a, labels), NameShape(b, labels)) == cmp(a, b)
    ensures OrderShape(NodeShape(n.targetClass, NameShapes(n.properties, labels)), cmp)
      == NodeShape(n.targetClass, NameShapes(OrderShape(n, cmp).properties, labels))
  {
    SortNamed(n.properties, cmp, labels);
    var sorted := Sort(n.properties, cmp);
    assert Number(NameShapes(sorted, labels)) == NameShapes(Number(sorted), labels);
  }

  lemma NamingCommutesAt(m: map<string, NodeShape>, cmp: Comparator, labels: Node -> set<Term>, iri: string)
    requires forall a, b :: cmp(NameShape(a, labels), NameShape(b, labels)) == cmp(a, b)
    requires iri in m
    ensures iri in OrderModel(NameModel(m, labels), cmp) && iri in NameModel(OrderModel(m, cmp), labels)
    ensures OrderModel(NameModel(m, labels), cmp)[iri] == NameModel(OrderModel(m, cmp), labels)[iri]
  {
    var n := m[iri];
    var named := NameModel(m, labels);
    assert named[iri] == NodeShape(n.targetClass, NameShapes(n.properties, labels));
    var ordered := OrderModel(m, cmp);
    assert ordered[iri] == OrderShape(n, cmp);
    OrderNamedShape(n, cmp, labels);
  }

  /**
   * Naming does not change the order: the sh:order a shape gets is the same
   * whether names are added before ordering (as the source does) or after.
   */
  lemma NamingCommutesWithOrdering(m: map<string, NodeShape>, cmp: Comparator, labels: Node -> set<Term>)
    requires forall a, b :: cmp(NameShape(a, labels), NameShape(b, labels)) == cmp(a, b)
    ensures OrderModel(NameModel(m, labels), cmp).Keys == NameModel(OrderModel(m, cmp), labels).Keys == m.Keys
    ensures forall iri :: iri in m ==>
      OrderModel(NameModel(m, labels), cmp)[iri] == NameModel(OrderModel(m, cmp), labels)[iri]
  {
    forall iri | iri in m
      ensures OrderModel(NameModel(m, labels), cmp)[iri] == NameModel(OrderModel(m, cmp), labels)[iri]
    {
      NamingCommutesAt(m, cmp, labels, iri);
    }
  }
}

=== FILE: ontology.dfy ===
/**
 * The reasoned ontology the translation reads, as injected relations. The
 * model performs no inference of its own: every closure (subclass, type) is
 * whatever the reasoner put in these fields.
 */
module Ontology {
  import opened Common
  import opened Rdf

  /**
   * The cardinality attributes of an OWL 2 restriction (sections 8.3 and 8.5
   * of the OWL 2 Structural Specification): owl:minCardinality,
   * owl:maxCardinality, owl:cardinality and their qualified forms.
   */
  datatype CardAttr =
    | MinCardinality
    | MaxCardinality
    | ExactCardinality
    | MinQualifiedCardinality
    | MaxQualifiedCardinality
    | QualifiedCardinality

  /**
   * An owl:Restriction node with the attributes the translation reads.
   * Cardinalities are already parsed to Java ints.
   */
  datatype Restriction = Restriction(
    node: Node,
    onProperty: Node,
    cardinalities: map<CardAttr, Int32>,
    hasValue: Option<Term>,
    someValuesFrom: Option<Node>,
    onClass: Option<Node>,
    onDataRange: Option<Node>)

  /**
   * The reasoned graph.
   *  - restrictions: every owl:Restriction, in enumeration order;
   *  - subjects: every resource that may be the subject of rdfs:subClassOf;
   *  - subClassOf(a, b): the (inferred) triple `a rdfs:subClassOf b`;
   *  - hasType(x, t): the (inferred) triple `x rdf:type t`;
   *  - ranges(p): the objects of `p rdfs:range ?`, in enumeration order;
   *  - unionOf(c): the members of c's owl:unionOf list, if it has one;
   *  - equivalentClasses(c), oneOf(c): the objects of owl:equivalentClass
   *    and the owl:oneOf lists of c;
   *  - domains: every `p rdfs:domain d` statement, as (p, d), in order.
   */
  datatype ReasonedGraph = ReasonedGraph(
    restrictions: seq<Restriction>,
    subjects: set<Node>,
    subClassOf: (Node, Node) -> bool,
    hasType: (Node, Node) -> bool,
    ranges: Node -> seq<Node>,
    unionOf: Node -> Option<seq<Node>>,
    equivalentClasses: Node -> seq<Node>,
    oneOf: Node -> seq<seq<Node>>,
    domains: seq<(Node, Node)>)
}

=== FILE: ordering.dfy ===
/**
 * Ordering of property shapes (ShapeUtils.applyOrder and orderModel): the
 * property shapes of every node shape are sorted with a comparator, then
 * numbered with sh:order 1, 2, ... in sorted order.
 *
 * The comparator as written only orders the pair (sh:minCount 1,
 * sh:minCount 0) by requiredness; every other pair, including one with a
 * minimum count of 2 or more, is ordered by the string form of the path.
 * The intended comparator puts every required shape (sh:minCount at least
 * 1) before every optional one.
 */
module Ordering {
  import opened Common
  import opened Rdf
  import opened Shapes

  /** The sh:minCount the comparator reads: 0 when the shape has none. */
  function MinOf(p: PropertyShape): int {
    if p.minCount.Some? then p.minCount.value else 0
  }

  /** A shape is required when it demands at least one value. */
  predicate Required(p: PropertyShape) {
    MinOf(p) >= 1
  }

  /** `compareTo` on the string forms of the two paths. */
  function PathOrder(a: PropertyShape, b: PropertyShape): int {
    CompareStrings(NodeString(a.path), NodeString(b.path))
  }

  /** The comparator of applyOrder, as written. */
  function CompareAsWritten(a: PropertyShape, b: PropertyShape): int {
    if MinOf(a) == 0 && MinOf(b) == 1 then 1
    else if MinOf(a) == 1 && MinOf(b) == 0 then -1
    else PathOrder(a, b)
  }

  /** The comparator as evidently intended: required before optional, then by path. */
  function CompareIntended(a: PropertyShape, b: PropertyShape): int {
    if !Required(a) && Required(b) then 1
    else if Required(a) && !Required(b) then -1
    else PathOrder(a, b)
  }

  type Comparator = (PropertyShape, PropertyShape) -> int

  /** Swapping the arguments turns "greater" into "less". */
  ghost predicate Antisymmetric(cmp: Comparator) {
    forall a, b :: cmp(a, b) > 0 ==> cmp(b, a) < 0
  }

  /** Neighbouring shapes never compare greater. */
  predicate SortedBy(s: seq<PropertyShape>, cmp: Comparator) {
    forall i :: 0 <= i < |s| - 1 ==> cmp(s[i], s[i + 1]) <= 0
  }

  /**
   * Inserts `x` behind the last shape of `s` that does not compare greater
   * than `x`; equal shapes keep their relative order.
   */
  function Insert(s: seq<PropertyShape>, x: PropertyShape, cmp: Comparator): (r: seq<PropertyShape>)
    ensures multiset(r) == multiset(s) + multiset{x}
    ensures |r| == |s| + 1
    ensures r[|r| - 1] == x || (|s| > 0 && r[|r| - 1] == s[|s| - 1])
  {
    if |s| == 0 then [x]
    else
      var prefix := s[..|s| - 1];
      var last := s[|s| - 1];
      assert s == prefix + [last];
      if cmp(last, x) > 0 then Insert(prefix, x, cmp) + [last]
      else s + [x]
  }

  /**
   * `Collections.sort`: a stable sort. For a comparator that is a total
   * preorder every stable sort gives this result.
   */
  function Sort(s: seq<PropertyShape>, cmp: Comparator): (r: seq<PropertyShape>)
    ensures multiset(r) == multiset(s)
    ensures |r| == |s|
  {
    if |s| == 0 then []
    else
      var prefix := s[..|s| - 1];
      assert s == prefix + [s[|s| - 1]];
      Insert(Sort(prefix, cmp), s[|s| - 1], cmp)
  }

  /** Inserting into a sorted sequence keeps it sorted. */
  lemma {:induction false} InsertSorted(s: seq<PropertyShape>, x: PropertyShape, cmp: Comparator)
    requires Antisymmetric(cmp)
    requires SortedBy(s, cmp)
    ensures SortedBy(Insert(s, x, cmp), cmp)
  {
    if |s| > 0 {
      var prefix := s[..|s| - 1];
      var last := s[|s| - 1];
      if cmp(last, x) > 0 {
        assert SortedBy(prefix, cmp) by {
          forall i | 0 <= i < |prefix| - 1
            ensures cmp(prefix[i], prefix[i + 1]) <= 0
          {
            assert prefix[i] == s[i] && prefix[i + 1] == s[i + 1];
          }
        }
        InsertSorted(prefix, x, cmp);
        var t := Insert(prefix, x, cmp);
        assert cmp(t[|t| - 1], last) <= 0 by {
          if t[|t| - 1] != x {
            assert t[|t| - 1] == s[|s| - 2];
          }
        }
        var r := t + [last];
        forall i | 0 <= i < |r| - 1
          ensures cmp(r[i], r[i + 1]) <= 0
        {
          if i < |t| - 1 {
            assert r[i] == t[i] && r[i + 1] == t[i + 1];
          }
        }
      }
    }
  }

  /** Sorting with an antisymmetric comparator leaves no neighbours out of order. */
  lemma {:induction false} SortSorted(s: seq<PropertyShape>, cmp: Comparator)
    requires Antisymmetric(cmp)
    ensures SortedBy(Sort(s, cmp), cmp)
  {
    if |s| > 0 {
      SortSorted(s[..|s| - 1], cmp);
      InsertSorted(Sort(s[..|s| - 1], cmp), s[|s| - 1], cmp);
    }
  }

  /** Both comparators are antisymmetric. */
  lemma ComparatorsAntisymmetric()
    ensures Antisymmetric(CompareAsWritten)
    ensures Antisymmetric(CompareIntended)
  {
    forall a, b
      ensures PathOrder(a, b) > 0 ==> PathOrder(b, a) < 0
    {
      CompareStringsFlip(NodeString(a.path), NodeString(b.path));
    }
  }

  /** The intended comparator is transitive: a total preorder. */
  lemma IntendedTransitive(a: PropertyShape, b: PropertyShape, c: PropertyShape)
    requires CompareIntended(a, b) <= 0 && CompareIntended(b, c) <= 0
    ensures CompareIntended(a, c) <= 0
  {
    if Required(a) == Required(b) && Required(b) == Required(c) {
      CompareStringsTransitive(NodeString(a.path), NodeString(b.path), NodeString(c.path));
    }
  }

  /** In a sequence sorted by the intended comparator, every shape before a required one is required. */
  lemma {:induction false} RequiredFirst(s: seq<PropertyShape>, i: int, j: int)
    requires SortedBy(s, CompareIntended)
    requires 0 <= i <= j < |s| && Required(s[j])
    ensures Required(s[i])
  {
    if i < j {
      assert CompareIntended(s[j - 1], s[j]) <= 0;
      RequiredFirst(s, i, j - 1);
    }
  }

  /** No optional shape comes before a required one. */
  predicate RequiredBeforeOptional(s: seq<PropertyShape>) {
    forall i, j :: 0 <= i <= j < |s| && Required(s[j]) ==> Required(s[i])
  }

  /** The sh:order values do not affect the required-first order. */
  lemma RequiredFirstNumbered(s: seq<PropertyShape>)
    requires SortedBy(Unnumbered(s), CompareIntended)
    ensures RequiredBeforeOptional(s)
  {
    var u := Unnumbered(s);
    forall i, j | 0 <= i <= j < |s| && Required(s[j])
      ensures Required(s[i])
    {
      assert u[j].minCount == s[j].minCount;
      RequiredFirst(u, i, j);
    }
  }

  /** With minimum counts of 0 and 1 only, the two comparators agree. */
  lemma ComparatorsAgree(a: PropertyShape, b: PropertyShape)
    requires 0 <= MinOf(a) <= 1 && 0 <= MinOf(b) <= 1
    ensures CompareAsWritten(a, b) == CompareIntended(a, b)
  {
  }

  predicate ZeroOrOne(s: seq<PropertyShape>) {
    forall p :: p in s ==> 0 <= MinOf(p) <= 1
  }

  lemma {:induction false} InsertAgree(s: seq<PropertyShape>, x: PropertyShape)
    requires ZeroOrOne(s) && 0 <= MinOf(x) <= 1
    ensures Insert(s, x, CompareAsWritten) == Insert(s, x, CompareIntended)
  {
    if |s| > 0 {
      var prefix := s[..|s| - 1];
      assert s[|s| - 1] in s;
      ComparatorsAgree(s[|s| - 1], x);
      assert ZeroOrOne(prefix) by {
        forall p | p in prefix
          ensures 0 <= MinOf(p) <= 1
        {
          var k :| 0 <= k < |prefix| && prefix[k] == p;
          assert s[k] == p;
        }
      }
      InsertAgree(prefix, x);
    }
  }

  /** When every sh:minCount is 0 or 1 the order as written is the intended one. */
  lemma {:induction false} SortAgree(s: seq<PropertyShape>)
    requires ZeroOrOne(s)
    ensures Sort(s, CompareAsWritten) == Sort(s, CompareIntended)
  {
    if |s| > 0 {
      var prefix := s[..|s| - 1];
      assert ZeroOrOne(prefix) by {
        forall p | p in prefix
          ensures 0 <= MinOf(p) <= 1
        {
          var k :| 0 <= k < |prefix| && prefix[k] == p;
          assert s[k] == p;
        }
      }
      SortAgree(prefix);
      var t := Sort(prefix, CompareIntended);
      assert ZeroOrOne(t) by {
        forall p | p in t
          ensures 0 <= MinOf(p) <= 1
        {
          assert p in multiset(t);
        }
      }
      assert s[|s| - 1] in s;
      InsertAgree(t, s[|s| - 1]);
    }
  }

  /** A required shape of path "b" and an optional one of path "a". */
  const RequiredB: PropertyShape := PropertyShape(Iri("b"), Some(2), None, Untyped, {}, None)
  const OptionalA: PropertyShape := PropertyShape(Iri("a"), Some(0), None, Untyped, {}, None)

  /**
   * The comparator as written puts an optional shape before a shape with
   * sh:minCount 2; the intended one keeps the required shape first.
   */
  lemma AsWrittenMisorders()
    ensures Sort([RequiredB, OptionalA], CompareAsWritten) == [OptionalA, RequiredB]
    ensures Sort([RequiredB, OptionalA], CompareIntended) == [RequiredB, OptionalA]
  {
    var s := [RequiredB, OptionalA];
    assert s[..1] == [RequiredB];
    assert [RequiredB][..0] == [];
    assert CompareStrings("b", "a") > 0;
  }

  /** Three shapes on which the comparator as written is not transitive: x < y < z < x. */
  lemma AsWrittenNotTransitive()
    ensures var x := PropertyShape(Iri("z"), Some(1), None, Untyped, {}, None);
      var y := PropertyShape(Iri("a"), Some(0), None, Untyped, {}, None);
      var z := PropertyShape(Iri("m"), Some(2), None, Untyped, {}, None);
      CompareAsWritten(x, y) < 0 && CompareAsWritten(y, z) < 0 && CompareAsWritten(z, x) < 0
  {
    assert CompareStrings("a", "m") < 0;
    assert CompareStrings("m", "z") < 0;
  }

  /** The loop after sorting: the i-th shape gets sh:order i + 1. */
  function Number(s: seq<PropertyShape>): (r: seq<PropertyShape>)
    ensures |r| == |s|
    ensures forall i :: 0 <= i < |s| ==> r[i].order == Some(i + 1) && r[i].(order := s[i].order) == s[i]
  {
    seq(|s|, i requires 0 <= i < |s| => s[i].(order := Some(i + 1)))
  }

  /** Some shape of `r` has sh:order `k`. */
  ghost predicate OrderTaken(r: seq<PropertyShape>, k: int) {
    exists i :: 0 <= i < |r| && r[i].order == Some(k)
  }

  /** The sh:order values of a numbered sequence are exactly 1 .. n, increasing. */
  lemma NumberOrders(s: seq<PropertyShape>)
    ensures forall k :: OrderTaken(Number(s), k) <==> 1 <= k <= |s|
    ensures var r := Number(s);
      forall i, j :: 0 <= i < j < |r| ==> r[i].order.value < r[j].order.value
  {
    var r := Number(s);
    forall k
      ensures OrderTaken(r, k) <==> 1 <= k <= |s|
    {
      if 1 <= k <= |s| {
        assert r[k - 1].order == Some(k);
      }
      if exists i :: 0 <= i < |r| && r[i].order == Some(k) {
        var i :| 0 <= i < |r| && r[i].order == Some(k);
        assert k == i + 1;
      }
    }
  }

  /** The shape with its sh:order removed. */
  function Unnumbered(s: seq<PropertyShape>): seq<PropertyShape>
  {
    seq(|s|, i requires 0 <= i < |s| => s[i].(order := None))
  }

  /**
   * applyOrder on one node shape: the property shapes are sorted and
   * numbered. Unnumbered shapes come out as a rearrangement of themselves.
   */
  function OrderShape(n: NodeShape, cmp: Comparator): (r: NodeShape)
    ensures r.targetClass == n.targetClass
    ensures |r.properties| == |n.properties|
    ensures forall i :: 0 <= i < |r.properties| ==> r.properties[i].order == Some(i + 1)
    ensures (forall p :: p in n.properties ==> p.order.None?) ==>
      multiset(Unnumbered(r.properties)) == multiset(n.properties)
    ensures Antisymmetric(cmp) && (forall p :: p in n.properties ==> p.order.None?) ==>
      SortedBy(Unnumbered(r.properties), cmp)
  {
    SortedUnnumbered(n.properties, cmp);
    SortedIfAntisymmetric(n.properties, cmp);
    NodeShape(n.targetClass, Number(Sort(n.properties, cmp)))
  }

  lemma SortedIfAntisymmetric(s: seq<PropertyShape>, cmp: Comparator)
    ensures Antisymmetric(cmp) ==> SortedBy(Sort(s, cmp), cmp)
  {
    if Antisymmetric(cmp) {
      SortSorted(s, cmp);
    }
  }

  /** Numbering then clearing the numbers gives back the sorted unnumbered shapes. */
  lemma SortedUnnumbered(s: seq<PropertyShape>, cmp: Comparator)
    ensures (forall p :: p in s ==> p.order.None?) ==>
      Unnumbered(Number(Sort(s, cmp))) == Sort(s, cmp)
  {
    var sorted := Sort(s, cmp);
    if forall p :: p in s ==> p.order.None? {
      assert Unnumbered(Number(sorted)) == sorted by {
        forall i | 0 <= i < |sorted|
          ensures sorted[i].order.None?
        {
          assert sorted[i] in multiset(s);
        }
      }
    }
  }

  /** orderModel: every node shape is ordered on its own. */
  function OrderModel(m: map<string, NodeShape>, cmp: Comparator): (r: map<string, NodeShape>)
    ensures r.Keys == m.Keys
    ensures forall iri :: iri in r ==> r[iri] == OrderShape(m[iri], cmp)
  {
    map iri | iri in m :: OrderShape(m[iri], cmp)
  }
}

=== FILE: pipeline.dfy ===
/**
 * The whole translation (OWL2SHACL.owl2shacl): generate the shape graph,
 * compress it, add the names of the ontology's labels and number the
 * property shapes. The reasoner is the injected graph `g`; the iteration
 * order of the restriction map is the parameter `keys`.
 */
module Pipeline {
  import opened Common
  import opened Rdf
  import opened Ontology
  import opened Shapes
  import opened PropertyConstraints
  import opened RestrictionCollector
  import Synthesis
  import opened Compression
  import opened Naming
  import opened Ordering

  /** `keys` visits every key of the restriction map exactly once. */
  predicate IsKeyOrder(rmap: map<Node, seq<Restriction>>, keys: seq<Node>) {
    && (forall k :: k in keys ==> k in rmap)
    && (forall k :: k in rmap ==> k in keys)
    && Distinct(keys)
  }

  /**
   * The translation with the subclass test `isSub` used when sh:class
   * values meet, and the comparator `cmp` used for sh:order, for the
   * restriction map `rmap` visited in the order `keys`. The source visits
   * every key of the map (`IsKeyOrder`); this and the lemmas below need only
   * distinct keys of the map, so they also cover a visit of some of them.
   */
  function Translate(
    g: ReasonedGraph, rmap: map<Node, seq<Restriction>>, keys: seq<Node>, labels: Node -> set<Term>,
    isSub: (Node, Node) -> bool, cmp: Comparator): (r: map<string, NodeShape>)
    requires forall k :: k in keys ==> k in rmap
    requires Distinct(keys)
    ensures forall iri, i :: iri in r && 0 <= i < |r[iri].properties| ==>
      r[iri].properties[i].order == Some(i + 1)
  {
    var sg := Synthesis.Generate(g, rmap, keys);
    OrderModel(NameModel(CompressModel(sg, isSub), labels), cmp)
  }

  /**
   * Every key gets its node shape, and every node shape targets a key whose
   * shape IRI it is.
   */
  lemma TranslateShapes(
    g: ReasonedGraph, rmap: map<Node, seq<Restriction>>, keys: seq<Node>, labels: Node -> set<Term>,
    isSub: (Node, Node) -> bool, cmp: Comparator)
    requires forall k :: k in keys ==> k in rmap
    requires Distinct(keys)
    ensures var r := Translate(g, rmap, keys, labels, isSub, cmp);
      && (forall k :: k in keys ==> ShapeIri(k) in r)
      && (forall iri :: iri in r ==> r[iri].targetClass in keys && ShapeIri(r[iri].targetClass) == iri)
  {
    var sg := Synthesis.Generate(g, rmap, keys);
    GeneratedTargets(sg, keys);
  }

  /**
   * Every node shape of the output lists its property shapes in comparator
   * order: with the sh:order values cleared, no neighbour compares greater.
   */
  lemma TranslateSorted(
    g: ReasonedGraph, rmap: map<Node, seq<Restriction>>, keys: seq<Node>, labels: Node -> set<Term>,
    isSub: (Node, Node) -> bool, cmp: Comparator)
    requires forall k :: k in keys ==> k in rmap
    requires Distinct(keys)
    requires Antisymmetric(cmp)
    ensures var r := Translate(g, rmap, keys, labels, isSub, cmp);
      forall iri :: iri in r ==> SortedBy(Unnumbered(r[iri].properties), cmp)
  {
    var m := CompressModel(Synthesis.Generate(g, rmap, keys), isSub);
    forall iri | iri in m
      ensures SortedBy(Unnumbered(OrderModel(NameModel(m, labels), cmp)[iri].properties), cmp)
    {
      NamedUnnumbered(m, labels, iri);
    }
  }

  /** The as-written translation orders every node shape by the comparator as written. */
  lemma TranslateAsWrittenSorted(g: ReasonedGraph, keys: seq<Node>, labels: Node -> set<Term>)
    requires IsKeyOrder(RestrictionsMap(g), keys)
    ensures var r := TranslateAsWritten(g, keys, labels);
      forall iri :: iri in r ==> SortedBy(Unnumbered(r[iri].properties), CompareAsWritten)
  {
    ComparatorsAntisymmetric();
    TranslateSorted(g, RestrictionsMap(g), keys, labels, ShapeGraphSubclass, CompareAsWritten);
  }

  /**
   * The translation as intended puts every required property shape of a node
   * shape before every optional one.
   */
  lemma TranslateIntendedRequiredFirst(g: ReasonedGraph, keys: seq<Node>, labels: Node -> set<Term>)
    requires IsKeyOrder(RestrictionsMap(g), keys)
    ensures var r := TranslateIntended(g, keys, labels);
      forall iri :: iri in r ==> RequiredBeforeOptional(r[iri].properties)
  {
    var r := TranslateIntended(g, keys, labels);
    ComparatorsAntisymmetric();
    TranslateSorted(g, RestrictionsMap(g), keys, labels, g.subClassOf, CompareIntended);
    forall iri | iri in r
      ensures RequiredBeforeOptional(r[iri].properties)
    {
      RequiredFirstNumbered(r[iri].properties);
    }
  }

  /** Naming keeps the compressed property shapes unnumbered. */
  lemma NamedUnnumbered(m: map<string, NodeShape>, labels: Node -> set<Term>, iri: string)
    requires iri in m && forall p :: p in m[iri].properties ==> p.names == {} && p.order.None?
    ensures iri in NameModel(m, labels)
    ensures forall p :: p in NameModel(m, labels)[iri].properties ==> p.order.None?
  {
    var named := NameModel(m, labels)[iri].properties;
    forall p | p in named
      ensures p.order.None?
    {
      var i :| 0 <= i < |named| && named[i] == p;
      assert m[iri].properties[i] in m[iri].properties;
    }
  }

  lemma GeneratedTargets(sg: ShapeGraph, keys: seq<Node>)
    requires forall iri :: iri in sg ==> sg[iri].targets == Synthesis.KeysOf(ShapeIri, keys, iri) && |sg[iri].targets| > 0
    ensures forall iri :: iri in sg ==> sg[iri].targets[0] in keys && ShapeIri(sg[iri].targets[0]) == iri
  {
    forall iri | iri in sg
      ensures sg[iri].targets[0] in keys && ShapeIri(sg[iri].targets[0]) == iri
    {
      var ts := sg[iri].targets;
      assert ts[0] in ts;
    }
  }

  /** No subclass pairs: the relation `setClass` sees in the shape graph, which holds no rdfs:subClassOf triples. */
  function ShapeGraphSubclass(x: Node, y: Node): bool { false }

  /** owl2shacl as written: sh:class values merged without subclass knowledge, the comparator as written. */
  function TranslateAsWritten(g: ReasonedGraph, keys: seq<Node>, labels: Node -> set<Term>): map<string, NodeShape>
    requires IsKeyOrder(RestrictionsMap(g), keys)
  {
    Translate(g, RestrictionsMap(g), keys, labels, ShapeGraphSubclass, CompareAsWritten)
  }

  /** owl2shacl as intended: the ontology's subclass relation when merging sh:class, required shapes first. */
  function TranslateIntended(g: ReasonedGraph, keys: seq<Node>, labels: Node -> set<Term>): map<string, NodeShape>
    requires IsKeyOrder(RestrictionsMap(g), keys)
  {
    Translate(g, RestrictionsMap(g), keys, labels, g.subClassOf, CompareIntended)
  }

  /** Naming and ordering commute in the translation: the names are the labels of each path. */
  lemma TranslateNamesFromLabels(
    g: ReasonedGraph, rmap: map<Node, seq<Restriction>>, keys: seq<Node>, labels: Node -> set<Term>,
    isSub: (Node, Node) -> bool, cmp: Comparator)
    requires forall k :: k in keys ==> k in rmap
    requires Distinct(keys)
    requires forall a, b :: cmp(NameShape(a, labels), NameShape(b, labels)) == cmp(a, b)
    ensures var r := Translate(g, rmap, keys, labels, isSub, cmp);
      forall iri, i :: iri in r && 0 <= i < |r[iri].properties| ==>
        r[iri].properties[i].names == labels(r[iri].properties[i].path)
  {
    var m := CompressModel(Synthesis.Generate(g, rmap, keys), isSub);
    var r := Translate(g, rmap, keys, labels, isSub, cmp);
    NamingCommutesWithOrdering(m, cmp, labels);
    forall iri, i | iri in r && 0 <= i < |r[iri].properties|
      ensures r[iri].properties[i].names == labels(r[iri].properties[i].path)
    {
      NamedAfterOrdering(m, iri, cmp, labels, i);
    }
  }

  lemma NamedAfterOrdering(m: map<string, NodeShape>, iri: string, cmp: Comparator, labels: Node -> set<Term>, i: int)
    requires iri in m && forall p :: p in m[iri].properties ==> p.names == {} && p.order.None?
    requires iri in NameModel(OrderModel(m, cmp), labels)
    requires 0 <= i < |NameModel(OrderModel(m, cmp), labels)[iri].properties|
    ensures var q := NameModel(OrderModel(m, cmp), labels)[iri].properties[i];
      q.names == labels(q.path)
  {
    var ordered := OrderShape(m[iri], cmp);
    assert NameModel(OrderModel(m, cmp), labels)[iri].properties[i] == NameShape(ordered.properties[i], labels);
    UnnamedAfterOrdering(m, iri, cmp, i);
  }

  /** Compressed property shapes carry no names, and ordering adds none. */
  lemma UnnamedAfterOrdering(m: map<string, NodeShape>, iri: string, cmp: Comparator, i: int)
    requires iri in m && forall p :: p in m[iri].properties ==> p.names == {} && p.order.None?
    requires 0 <= i < |OrderShape(m[iri], cmp).properties|
    ensures OrderShape(m[iri], cmp).properties[i].names == {}
  {
    var r := OrderShape(m[iri], cmp);
    var u := Unnumbered(r.properties);
    assert u[i] in multiset(u);
    assert u[i] in m[iri].properties;
  }

  /**
   * Two fragments on the same path: the first says sh:class `a`, the second
   * sh:class `b`, a subclass of `a` in the ontology.
   */
  function ClassPair(p: Node, a: Node, b: Node): seq<Fragment> {
    [Fragment(p, None, None, None, None, Some(a), None, None),
     Fragment(p, None, None, None, None, Some(b), None, None)]
  }

  lemma ClassPairGroup(p: Node, a: Node, b: Node)
    ensures Keys(ClassPair(p, a, b), PathKey) == [NodeString(p)]
    ensures Group(ClassPair(p, a, b), PathKey, NodeString(p)) == ClassPair(p, a, b)
  {
    var fs := ClassPair(p, a, b);
    assert fs[..1] == [fs[0]] && fs[..1][..0] == [];
    assert Keys(fs[..1], PathKey) == [NodeString(p)];
    assert Group(fs[..1], PathKey, NodeString(p)) == [fs[0]];
  }

  /** Merging the pair keeps `b` exactly when `isSub` says it is a subclass of `a`. */
  lemma MergeClassPair(p: Node, a: Node, b: Node, isSub: (Node, Node) -> bool)
    requires a != b
    ensures Merge(ClassPair(p, a, b), isSub)
      == Constraint(Some(p), Some(if isSub(b, a) then b else a), None, None, 0, None, None, None)
  {
    var fs := ClassPair(p, a, b);
    assert fs[..1] == [fs[0]] && fs[..1][..0] == [];
    assert Merge(fs[..1], isSub) == Add(Empty, fs[0], isSub);
  }

  /** A node shape whose fragments all share one path compresses to the single merged property shape. */
  lemma CompressSinglePath(d: DraftShape, k: string, isSub: (Node, Node) -> bool)
    requires |d.targets| > 0 && Keys(d.fragments, PathKey) == [k]
    ensures CompressShape(d, isSub).properties == [MergedShape(d.fragments, k, isSub)]
  {
    var n := CompressShape(d, isSub);
    assert n.properties[0] == MergedShape(d.fragments, k, isSub);
  }

  /** The compressed shape of the pair: one property shape whose sh:class is the merged class. */
  lemma CompressClassPair(t: Node, p: Node, a: Node, b: Node, isSub: (Node, Node) -> bool)
    requires a != b
    ensures CompressShape(DraftShape([t], ClassPair(p, a, b)), isSub).properties
      == [PropertyShape(p, Some(0), None, ClassIs(if isSub(b, a) then b else a), {}, None)]
  {
    ClassPairGroup(p, a, b);
    CompressSinglePath(DraftShape([t], ClassPair(p, a, b)), NodeString(p), isSub);
    MergedClassPair(p, a, b, isSub);
  }

  lemma MergedClassPair(p: Node, a: Node, b: Node, isSub: (Node, Node) -> bool)
    requires a != b
    requires Keys(ClassPair(p, a, b), PathKey) == [NodeString(p)]
    ensures MergedShape(ClassPair(p, a, b), NodeString(p), isSub)
      == PropertyShape(p, Some(0), None, ClassIs(if isSub(b, a) then b else a), {}, None)
  {
    ClassPairGroup(p, a, b);
    MergeClassPair(p, a, b, isSub);
  }

  /**
   * As written, the more specific class never replaces the general one:
   * the compressed shape keeps sh:class `a`, where the ontology's subclass
   * relation gives `b`.
   */
  lemma SubclassIgnoredAsWritten(g: ReasonedGraph, t: Node, p: Node, a: Node, b: Node)
    requires a != b && g.subClassOf(b, a)
    ensures CompressShape(DraftShape([t], ClassPair(p, a, b)), ShapeGraphSubclass).properties
      == [PropertyShape(p, Some(0), None, ClassIs(a), {}, None)]
    ensures CompressShape(DraftShape([t], ClassPair(p, a, b)), g.subClassOf).properties
      == [PropertyShape(p, Some(0), None, ClassIs(b), {}, None)]
  {
    CompressClassPair(t, p, a, b, ShapeGraphSubclass);
    CompressClassPair(t, p, a, b, g.subClassOf);
  }
}

=== FILE: rdf.dfy ===
/**
 * RDF terms and the fixed RDF, RDFS and OWL 2 vocabulary the translation
 * recognises.
 */
module Rdf {

  /** A resource: an IRI or a blank node with its identifier. */
  datatype Node = Iri(iri: string) | Blank(id: string)

  /** An object position: a resource or a literal (given by its lexical form). */
  datatype Term = Resource(node: Node) | Literal(lexical: string)

  /** `Resource.toString()`: the IRI, or the blank node's identifier. */
  function NodeString(n: Node): string {
    match n
    case Iri(s) => s
    case Blank(b) => b
  }

  const RdfNs: string := "http://www.w3.org/1999/02/22-rdf-syntax-ns#"
  const RdfsNs: string := "http://www.w3.org/2000/01/rdf-schema#"
  const OwlNs: string := "http://www.w3.org/2002/07/owl#"

  const OwlThing: Node := Iri(OwlNs + "Thing")
  const OwlNothing: Node := Iri(OwlNs + "Nothing")
  const OwlObjectProperty: Node := Iri(OwlNs + "ObjectProperty")
  const OwlDatatypeProperty: Node := Iri(OwlNs + "DatatypeProperty")
  const RdfsResource: Node := Iri(RdfsNs + "Resource")
  const RdfsDatatype: Node := Iri(RdfsNs + "Datatype")
  const RdfsClass: Node := Iri(RdfsNs + "Class")
}

=== FILE: shapes.dfy ===
/**
 * The SHACL vocabulary the translation produces (section 2 and section 4 of
 * the W3C SHACL Recommendation), as immutable values: property-shape
 * fragments written by the synthesiser, node shapes under construction, and
 * the merged property and node shapes that are finally emitted.
 */
module Shapes {
  import opened Common
  import opened Rdf
  import opened ShortNames

  /** One alternative of an sh:or list: an sh:class or an sh:datatype constraint. */
  datatype OrAlt = ClassAlt(cls: Node) | DatatypeAlt(dtype: Node)

  /**
   * An anonymous property shape written by the synthesiser for one
   * (class, restriction) pair or one domain/range fallback: sh:path,
   * sh:minCount, sh:maxCount, sh:hasValue, sh:in (as a set of individuals),
   * sh:class, sh:datatype and sh:or.
   */
  datatype Fragment = Fragment(
    path: Node,
    minCount: Option<Int32>,
    maxCount: Option<Int32>,
    hasValue: Option<Term>,
    values: Option<set<Node>>,
    cls: Option<Node>,
    dtype: Option<Node>,
    alternatives: Option<seq<OrAlt>>)

  /** A node shape being built: its sh:targetClass values and its sh:property fragments, in insertion order. */
  datatype DraftShape = DraftShape(targets: seq<Node>, fragments: seq<Fragment>)

  /** The generated shape graph: node shapes by IRI. */
  type ShapeGraph = map<string, DraftShape>

  /**
   * The one typing constraint a merged property shape keeps: sh:hasValue,
   * sh:in, sh:class, sh:datatype, sh:or, or none.
   */
  datatype Typing =
    | HasValue(value: Term)
    | In(values: set<Node>)
    | ClassIs(cls: Node)
    | DatatypeIs(dtype: Node)
    | Or(alternatives: seq<OrAlt>)
    | Untyped

  /** A merged property shape: sh:path, bounds, one typing constraint, sh:name values and sh:order. */
  datatype PropertyShape = PropertyShape(
    path: Node,
    minCount: Option<Int32>,
    maxCount: Option<Int32>,
    typing: Typing,
    names: set<Term>,
    order: Option<int>)

  /** A compressed node shape: rdf:type sh:NodeShape, one sh:targetClass and its merged property shapes. */
  datatype NodeShape = NodeShape(targetClass: Node, properties: seq<PropertyShape>)

  const ShapeBase: string := "http://owl2shacl.liu.se/"

  /** The IRI of the node shape generated for class `c`. */
  function ShapeIri(c: Node): string {
    ShapeBase + ShortName(NodeString(c)) + "Shape"
  }
}

=== FILE: shortname.dfy ===
/**
 * Short names of IRIs (OWL2SHACL.getShortName): the part after the last '/'
 * and then after the last '#'. Node shapes are named after the short name of
 * their target class.
 */
module ShortNames {
  import opened Common

  /** A character that may occur in a short name. */
  predicate NameChar(c: char) {
    c != '/' && c != '#'
  }

  /**
   * Where the short name of `name` starts: just after the last '/' or '#'.
   * The source strips through the last '/' and then, in what is left,
   * through the last '#'.
   */
  function NameStart(name: string): (k: nat)
    ensures k <= |name|
    ensures forall i :: k <= i < |name| ==> NameChar(name[i])
    ensures 0 < k ==> !NameChar(name[k - 1])
  {
    var slash := LastIndexIn(name, '/', 0, |name|);
    var hash := LastIndexIn(name, '#', slash + 1, |name|);
    hash + 1
  }

  /**
   * getShortName: the part of `name` after its last separator. It holds no
   * separator, and is preceded by one unless it is all of `name`.
   */
  function ShortName(name: string): (r: string)
    ensures |r| <= |name| && r == name[|name| - |r|..]
    ensures forall i :: 0 <= i < |r| ==> NameChar(r[i])
    ensures |r| < |name| ==> !NameChar(name[|name| - |r| - 1])
  {
    name[NameStart(name)..]
  }

  /**
   * The three properties of ShortName's contract pin the short name down:
   * any suffix with them is the short name.
   */
  lemma ShortNameUnique(name: string, r: string)
    requires |r| <= |name| && r == name[|name| - |r|..]
    requires forall i :: 0 <= i < |r| ==> NameChar(r[i])
    requires |r| < |name| ==> !NameChar(name[|name| - |r| - 1])
    ensures r == ShortName(name)
  {
  }

  /** A string without '/' and '#' is its own short name. */
  lemma ShortNameOfPlainName(name: string)
    requires forall i :: 0 <= i < |name| ==> NameChar(name[i])
    ensures ShortName(name) == name
  {
    assert name[0..] == name;
  }

  /** Taking the short name twice is the same as taking it once. */
  lemma ShortNameIdempotent(name: string)
    ensures ShortName(ShortName(name)) == ShortName(name)
  {
    ShortNameOfPlainName(ShortName(name));
  }
}

=== FILE: sortkeys.dfy ===
/**
 * Sort keys for classes and properties (ShapeUtils.generateSortKeyMap).
 * A key is the chain of explicit first parents of a resource, highest
 * ancestor first, joined with " -> " and ending with the resource itself.
 * For classes, anonymous superclasses contribute nothing to the key (their
 * own parents still do); for properties every super-property is written.
 */
module SortKeys {
  import opened Common
  import opened Rdf

  const Arrow: string := " -> "

  /**
   * The explicit (not reasoned) graph the keys are read from:
   *  - classes, objectProperties, datatypeProperties: the resources typed
   *    owl:Class, owl:ObjectProperty and owl:DatatypeProperty, in
   *    enumeration order;
   *  - superClass, superProperty: the resource `getPropertyResourceValue`
   *    returns for rdfs:subClassOf and rdfs:subPropertyOf, when there is one.
   */
  datatype ExplicitGraph = ExplicitGraph(
    classes: seq<Node>,
    objectProperties: seq<Node>,
    datatypeProperties: seq<Node>,
    superClass: map<Node, Node>,
    superProperty: map<Node, Node>)

  /** What an ancestor `p` adds in front of the key built so far. */
  function Shown(p: Node, skipAnon: bool): string {
    if skipAnon && p.Blank? then "" else NodeString(p) + Arrow
  }

  /**
   * The key loop: climb from `c` to its parent while it has one, putting
   * the parent in front of `key`. `visited` holds the resources already
   * left; meeting one of them again means the source's loop never ends,
   * which is `None` here.
   */
  function Walk(parents: map<Node, Node>, skipAnon: bool, c: Node, visited: set<Node>, key: string): Option<string>
    decreases parents.Keys - visited
  {
    if c !in parents then Some(key)
    else if c in visited then None
    else
      var p := parents[c];
      Walk(parents, skipAnon, p, visited + {c}, Shown(p, skipAnon) + key)
  }

  /** The sort key of one resource; `None` when the source does not terminate. */
  function SortKey(parents: map<Node, Node>, skipAnon: bool, c: Node): Option<string> {
    Walk(parents, skipAnon, c, {}, NodeString(c))
  }

  /**
   * `path` is the complete first-parent chain of `path[0]`: every element
   * but the last has the next one as parent, and the last has none.
   */
  ghost predicate IsChain(parents: map<Node, Node>, path: seq<Node>) {
    && |path| > 0
    && path[|path| - 1] !in parents
    && forall i :: 0 <= i < |path| - 1 ==> path[i] in parents && parents[path[i]] == path[i + 1]
  }

  /** The ancestors of a chain written highest first, each followed by the arrow. */
  function Above(path: seq<Node>, skipAnon: bool): string
    decreases |path|
  {
    if |path| <= 1 then "" else Above(path[1..], skipAnon) + Shown(path[1], skipAnon)
  }

  /** The key a complete chain stands for. */
  function ChainKey(path: seq<Node>, skipAnon: bool): string
    requires |path| > 0
  {
    Above(path, skipAnon) + NodeString(path[0])
  }

  lemma ChainTail(parents: map<Node, Node>, path: seq<Node>)
    requires IsChain(parents, path) && |path| > 1
    ensures IsChain(parents, path[1..])
    ensures path[0] in parents && parents[path[0]] == path[1]
  {
    assert forall i :: 0 <= i < |path| - 2 ==> path[1..][i] == path[i + 1];
  }

  /** A chain never repeats a resource: the parent map is a function. */
  lemma {:induction false} ChainDistinct(parents: map<Node, Node>, path: seq<Node>)
    requires IsChain(parents, path)
    ensures path[0] !in path[1..]
    decreases |path|
  {
    if |path| > 1 {
      ChainTail(parents, path);
      ChainDistinct(parents, path[1..]);
      forall j | 1 <= j < |path|
        ensures path[j] != path[0]
      {
        ChainNoReturn(parents, path, j);
      }
    }
  }

  /** A chain does not come back to its start: if it did, it would continue past its end. */
  lemma {:induction false} ChainNoReturn(parents: map<Node, Node>, path: seq<Node>, j: nat)
    requires IsChain(parents, path)
    requires 1 <= j < |path|
    ensures path[j] != path[0]
    decreases |path| - j
  {
    if j < |path| - 1 {
      ChainTail(parents, path);
      ChainNoReturn(parents, path[1..], j);
      assert path[1..][j] == path[j + 1];
    }
  }

  /** Following a chain that avoids `visited`, the loop ends with the chain's ancestors in front of `key`. */
  lemma {:induction false} WalkFollowsChain(parents: map<Node, Node>, skipAnon: bool, path: seq<Node>, visited: set<Node>, key: string)
    requires IsChain(parents, path)
    requires forall i :: 0 <= i < |path| ==> path[i] !in visited
    ensures Walk(parents, skipAnon, path[0], visited, key) == Some(Above(path, skipAnon) + key)
    decreases |path|
  {
    if |path| > 1 {
      ChainTail(parents, path);
      ChainDistinct(parents, path);
      var rest := path[1..];
      forall i | 0 <= i < |rest|
        ensures rest[i] !in visited + {path[0]}
      {
        assert rest[i] == path[i + 1];
      }
      WalkFollowsChain(parents, skipAnon, rest, visited + {path[0]}, Shown(path[1], skipAnon) + key);
      assert Above(path, skipAnon) + key == Above(rest, skipAnon) + (Shown(path[1], skipAnon) + key);
    } else {
      assert "" + key == key;
    }
  }

  /** A terminating loop has climbed a complete chain. */
  lemma {:induction false} WalkFindsChain(parents: map<Node, Node>, skipAnon: bool, c: Node, visited: set<Node>, key: string)
    returns (path: seq<Node>)
    requires Walk(parents, skipAnon, c, visited, key).Some?
    ensures IsChain(parents, path) && path[0] == c
    ensures Walk(parents, skipAnon, c, visited, key) == Some(Above(path, skipAnon) + key)
    decreases parents.Keys - visited
  {
    if c !in parents {
      path := [c];
      assert "" + key == key;
    } else {
      var p := parents[c];
      var rest := WalkFindsChain(parents, skipAnon, p, visited + {c}, Shown(p, skipAnon) + key);
      path := [c] + rest;
      assert path[1..] == rest;
      forall i | 0 <= i < |path| - 1
        ensures path[i] in parents && parents[path[i]] == path[i + 1]
      {
        if i > 0 {
          assert path[i] == rest[i - 1] && path[i + 1] == rest[i];
        }
      }
      assert Above(path, skipAnon) + key == Above(rest, skipAnon) + (Shown(p, skipAnon) + key);
    }
  }

  /** The sort key exists exactly when `c` has a complete chain, and is that chain's key. */
  lemma SortKeyIsChainKey(parents: map<Node, Node>, skipAnon: bool, path: seq<Node>)
    requires IsChain(parents, path)
    ensures SortKey(parents, skipAnon, path[0]) == Some(ChainKey(path, skipAnon))
  {
    WalkFollowsChain(parents, skipAnon, path, {}, NodeString(path[0]));
  }

  /** Conversely, a defined sort key comes from the chain of `c`. */
  lemma SortKeyHasChain(parents: map<Node, Node>, skipAnon: bool, c: Node) returns (path: seq<Node>)
    requires SortKey(parents, skipAnon, c).Some?
    ensures IsChain(parents, path) && path[0] == c
    ensures SortKey(parents, skipAnon, c) == Some(ChainKey(path, skipAnon))
  {
    path := WalkFindsChain(parents, skipAnon, c, {}, NodeString(c));
  }

  /** A parent cycle reached from `c` makes the loop run forever. */
  lemma SelfParentLoops(parents: map<Node, Node>, skipAnon: bool, c: Node)
    requires c in parents && parents[c] == c
    ensures SortKey(parents, skipAnon, c).None?
  {
    assert {} + {c} == {c};
    assert SortKey(parents, skipAnon, c) == Walk(parents, skipAnon, c, {c}, Shown(c, skipAnon) + NodeString(c));
  }

  /** The loop ends exactly when `c` has a complete parent chain, that is, when no cycle is reached. */
  lemma SortKeyDefinedIffChain(parents: map<Node, Node>, skipAnon: bool, c: Node)
    ensures SortKey(parents, skipAnon, c).Some? <==> exists path :: IsChain(parents, path) && path[0] == c
  {
    if SortKey(parents, skipAnon, c).Some? {
      var path := SortKeyHasChain(parents, skipAnon, c);
    }
    if exists path :: IsChain(parents, path) && path[0] == c {
      var path :| IsChain(parents, path) && path[0] == c;
      SortKeyIsChainKey(parents, skipAnon, path);
    }
  }

  /** A resource without a parent is its own key. */
  lemma RootKey(parents: map<Node, Node>, skipAnon: bool, c: Node)
    requires c !in parents
    ensures SortKey(parents, skipAnon, c) == Some(NodeString(c))
  {
  }

  /** Skipping anonymous ancestors changes nothing when every ancestor is an IRI. */
  lemma {:induction false} SkipOnlyAffectsBlanks(path: seq<Node>)
    requires forall i :: 1 <= i < |path| ==> path[i].Iri?
    ensures Above(path, true) == Above(path, false)
    decreases |path|
  {
    if |path| > 1 {
      assert forall i :: 1 <= i < |path[1..]| ==> path[1..][i] == path[i + 1];
      SkipOnlyAffectsBlanks(path[1..]);
    }
  }

  /**
   * A class under an anonymous superclass: the class key leaves the blank
   * node out, the property key for the same chain writes it.
   */
  lemma BlankAncestorSkippedForClasses(c: Node, b: string, top: string)
    ensures ChainKey([c, Blank(b), Iri(top)], true) == top + Arrow + NodeString(c)
    ensures ChainKey([c, Blank(b), Iri(top)], false) == top + Arrow + b + Arrow + NodeString(c)
  {
    var path := [c, Blank(b), Iri(top)];
    assert path[1..] == [Blank(b), Iri(top)] && path[1..][1..] == [Iri(top)];
    assert Above([Iri(top)], true) == "" && Above([Iri(top)], false) == "";
    assert Above(path, true) == "" + (top + Arrow) + "";
    assert Above(path, false) == "" + (top + Arrow) + (b + Arrow);
  }

  /**
   * One of the three `forEach` loops: put the key of every resource of
   * `nodes` into `m`; `None` when one of the key loops does not end.
   */
  function PutKeys(m: map<Node, string>, nodes: seq<Node>, parents: map<Node, Node>, skipAnon: bool): (r: Option<map<Node, string>>)
    ensures r.Some? <==> forall i :: 0 <= i < |nodes| ==> SortKey(parents, skipAnon, nodes[i]).Some?
    ensures r.Some? ==> forall n :: n in r.value <==> n in m || n in nodes
    ensures r.Some? ==> forall n :: n in r.value ==>
      r.value[n] == if n in nodes then SortKey(parents, skipAnon, n).value else m[n]
    decreases |nodes|
  {
    if |nodes| == 0 then Some(m)
    else
      var prefix := nodes[..|nodes| - 1];
      var last := nodes[|nodes| - 1];
      assert nodes == prefix + [last];
      match PutKeys(m, prefix, parents, skipAnon)
      case None => None
      case Some(m') =>
        match SortKey(parents, skipAnon, last)
        case None => None
        case Some(k) => Some(m'[last := k])
  }

  /**
   * generateSortKeyMap: classes first (anonymous superclasses skipped),
   * then object properties, then datatype properties (nothing skipped);
   * a later put replaces an earlier one.
   */
  function SortKeyMap(g: ExplicitGraph): (r: Option<map<Node, string>>)
    ensures r.Some? <==>
      && (forall i :: 0 <= i < |g.classes| ==> SortKey(g.superClass, true, g.classes[i]).Some?)
      && (forall i :: 0 <= i < |g.objectProperties| ==> SortKey(g.superProperty, false, g.objectProperties[i]).Some?)
      && (forall i :: 0 <= i < |g.datatypeProperties| ==> SortKey(g.superProperty, false, g.datatypeProperties[i]).Some?)
    ensures r.Some? ==> forall n :: n in r.value <==>
      n in g.classes || n in g.objectProperties || n in g.datatypeProperties
    ensures r.Some? ==> forall n :: n in r.value ==>
      r.value[n] == if n in g.objectProperties || n in g.datatypeProperties
        then SortKey(g.superProperty, false, n).value
        else SortKey(g.superClass, true, n).value
  {
    match PutKeys(map[], g.classes, g.superClass, true)
    case None => None
    case Some(m1) =>
      match PutKeys(m1, g.objectProperties, g.superProperty, false)
      case None => None
      case Some(m2) => PutKeys(m2, g.datatypeProperties, g.superProperty, false)
  }
}

=== FILE: synthesis.dfy ===
/**
 * Fragment synthesis (OWL2SHACL.generate): one property-shape fragment per
 * (class, restriction) pair, then a fragment per rdfs:domain/rdfs:range
 * declaration that is not yet covered. The SPARQL ASK of the source
 * ("does this node shape already have a property with this path?") is a
 * membership test on the node shape being built.
 */
module Synthesis {
  import opened Common
  import opened Rdf
  import opened Ontology
  import opened Cardinality
  import opened TypeInference
  import opened Shapes

  /** The member of a one-element list. */
  function Single(o: Option<seq<Node>>): Option<Node> {
    if o.Some? && |o.value| == 1 then Some(o.value[0]) else None
  }

  /** A list that the source turns into an sh:or (any size but one). */
  predicate Multiple(o: Option<seq<Node>>) {
    o.Some? && |o.value| != 1
  }

  function ClassAlts(cs: seq<Node>): seq<OrAlt>
  {
    seq(|cs|, i requires 0 <= i < |cs| => ClassAlt(cs[i]))
  }

  function DatatypeAlts(ds: seq<Node>): seq<OrAlt>
  {
    seq(|ds|, i requires 0 <= i < |ds| => DatatypeAlt(ds[i]))
  }

  /**
   * The fragment for one (class, restriction) pair. It does not depend on
   * the class. Bounds come from the cardinality scans, sh:in from the
   * enumeration; an enumeration suppresses the class constraint but not
   * the datatype constraint; a single class (datatype) is an sh:class
   * (sh:datatype), any other number an sh:or of one alternative each.
   */
  function RestrictionFragment(g: ReasonedGraph, r: Restriction): (f: Fragment)
    ensures f.path == r.onProperty && f.hasValue == r.hasValue
    ensures f.minCount == MinCardinalityOf(r) && f.maxCount == MaxCardinalityOf(r)
    ensures f.values == PossibleValues(g, r)
    ensures f.values.Some? ==> f.cls.None? && (f.alternatives.Some? ==> forall a :: a in f.alternatives.value ==> a.DatatypeAlt?)
    ensures f.values.None? && PossibleClasses(g, r).Some? ==>
      var cs := PossibleClasses(g, r).value;
      && (|cs| == 1 ==> f.cls == Some(cs[0]))
      && (|cs| != 1 ==> f.cls.None? && f.alternatives == Some(ClassAlts(cs)))
    ensures PossibleClasses(g, r).None? ==> f.cls.None?
    ensures var ds := PossibleDatatypes(g, r);
      && (ds.Some? && |ds.value| == 1 ==> f.dtype == Some(ds.value[0]))
      && (ds.Some? && |ds.value| != 1 && !(f.values.None? && Multiple(PossibleClasses(g, r))) ==> f.alternatives == Some(DatatypeAlts(ds.value)))
      && (ds.None? ==> f.dtype.None?)
    ensures !(f.values.None? && Multiple(PossibleClasses(g, r))) && !Multiple(PossibleDatatypes(g, r)) ==>
      f.alternatives.None?
  {
    var values := PossibleValues(g, r);
    var classes := if values.None? then PossibleClasses(g, r) else None;
    var datatypes := PossibleDatatypes(g, r);
    Fragment(
      path := r.onProperty,
      minCount := MinCardinalityOf(r),
      maxCount := MaxCardinalityOf(r),
      hasValue := r.hasValue,
      values := values,
      cls := Single(classes),
      dtype := Single(datatypes),
      alternatives :=
        if Multiple(classes) then Some(ClassAlts(classes.value))
        else if Multiple(datatypes) then Some(DatatypeAlts(datatypes.value))
        else None)
  }

  /**
   * owl:someValuesFrom alone gives no lower bound: the header comment of
   * the source promises sh:min 1, the code does not add it.
   */
  lemma SomeValuesFromGivesNoMinimum(g: ReasonedGraph, r: Restriction)
    requires r.someValuesFrom.Some? && r.cardinalities == map[]
    ensures RestrictionFragment(g, r).minCount.None?
    ensures RestrictionFragment(g, r).maxCount.None?
  {
  }

  /** A property of the RDF, RDFS or OWL vocabulary, skipped by the fallback. */
  predicate BuiltIn(p: Node) {
    var s := NodeString(p);
    StartsWith(s, RdfsNs) || StartsWith(s, RdfNs) || StartsWith(s, OwlNs)
  }

  predicate IsDatatypeRange(g: ReasonedGraph, x: Node) {
    g.hasType(x, RdfsDatatype)
  }

  predicate IsClassRange(g: ReasonedGraph, x: Node) {
    !g.hasType(x, RdfsDatatype) && g.hasType(x, RdfsClass)
  }

  /** The ranges sh:datatype takes. */
  function DatatypeRange(g: ReasonedGraph): Node -> bool {
    x => IsDatatypeRange(g, x)
  }

  /** The ranges sh:class takes. */
  function ClassRange(g: ReasonedGraph): Node -> bool {
    x => IsClassRange(g, x)
  }

  function First(s: seq<Node>): Option<Node>
  {
    if |s| == 0 then None else Some(s[0])
  }

  /**
   * The fallback fragment for property `p`: sh:path p with sh:datatype for a
   * range typed rdfs:Datatype and sh:class for a range typed rdfs:Class
   * (and not rdfs:Datatype); attached only when some range is of either
   * kind. Both are set when the ranges hold one of each kind. Where several
   * ranges of one kind qualify, the first is kept (`FallbackFirstRange`).
   */
  function FallbackFragment(g: ReasonedGraph, p: Node): (f: Option<Fragment>)
    ensures f.Some? <==> exists x :: x in g.ranges(p) && (IsDatatypeRange(g, x) || IsClassRange(g, x))
    ensures f.Some? ==> var v := f.value;
      && v.path == p && v.minCount.None? && v.maxCount.None? && v.hasValue.None?
      && v.values.None? && v.alternatives.None?
      && (v.dtype.Some? <==> exists x :: x in g.ranges(p) && IsDatatypeRange(g, x))
      && (v.dtype.Some? ==> v.dtype.value in g.ranges(p) && IsDatatypeRange(g, v.dtype.value))
      && (v.cls.Some? <==> exists x :: x in g.ranges(p) && IsClassRange(g, x))
      && (v.cls.Some? ==> v.cls.value in g.ranges(p) && IsClassRange(g, v.cls.value))
  {
    var datatypes := Filter(g.ranges(p), DatatypeRange(g));
    var classes := Filter(g.ranges(p), ClassRange(g));
    if |datatypes| == 0 && |classes| == 0 then
      assert forall x :: x in g.ranges(p) ==> !IsDatatypeRange(g, x) && !IsClassRange(g, x) by {
        forall x | x in g.ranges(p)
          ensures !IsDatatypeRange(g, x) && !IsClassRange(g, x)
        {
          assert x !in datatypes && x !in classes;
        }
      }
      None
    else
      assert |datatypes| > 0 ==> datatypes[0] in datatypes;
      assert |classes| > 0 ==> classes[0] in classes;
      Some(Fragment(p, None, None, None, None, First(classes), First(datatypes), None))
  }

  /**
   * The range a fallback fragment carries for each kind is the earliest
   * range of that kind: no range before it in `g.ranges(p)` qualifies.
   */
  lemma FallbackFirstRange(g: ReasonedGraph, p: Node)
    ensures FallbackFragment(g, p).Some? ==> var v := FallbackFragment(g, p).value; var rs := g.ranges(p);
      && (v.dtype.Some? ==> exists i :: (0 <= i < |rs| && rs[i] == v.dtype.value &&
            forall j :: 0 <= j < i ==> !IsDatatypeRange(g, rs[j])))
      && (v.cls.Some? ==> exists i :: (0 <= i < |rs| && rs[i] == v.cls.value &&
            forall j :: 0 <= j < i ==> !IsClassRange(g, rs[j])))
  {
    FilterHead(g.ranges(p), DatatypeRange(g));
    FilterHead(g.ranges(p), ClassRange(g));
  }

  // ---------------------------------------------------------------------
  // First pass: one node shape per key of the restrictions map
  // ---------------------------------------------------------------------

  function RestrictionFragments(g: ReasonedGraph, rs: seq<Restriction>): (fs: seq<Fragment>)
    ensures |fs| == |rs| && forall i :: 0 <= i < |rs| ==> fs[i] == RestrictionFragment(g, rs[i])
  {
    seq(|rs|, i requires 0 <= i < |rs| => RestrictionFragment(g, rs[i]))
  }

  /** The fragments of the restrictions of `ks`, key after key. */
  function FragmentsOf(g: ReasonedGraph, rmap: map<Node, seq<Restriction>>, ks: seq<Node>): seq<Fragment>
    requires forall k :: k in ks ==> k in rmap
  {
    if |ks| == 0 then []
    else FragmentsOf(g, rmap, ks[..|ks| - 1]) + RestrictionFragments(g, rmap[ks[|ks| - 1]])
  }

  /**
   * The keys of `keys` whose node shape has IRI `iri`, in order (two classes
   * with the same short name share one node shape).
   */
  function KeysOf(shapeOf: Node -> string, keys: seq<Node>, iri: string): (ks: seq<Node>)
    ensures forall k :: k in ks <==> k in keys && shapeOf(k) == iri
  {
    if |keys| == 0 then []
    else
      var last := keys[|keys| - 1];
      KeysOf(shapeOf, keys[..|keys| - 1], iri) + (if shapeOf(last) == iri then [last] else [])
  }

  lemma KeysOfSnoc(shapeOf: Node -> string, keys: seq<Node>, k: Node, iri: string)
    ensures KeysOf(shapeOf, keys + [k], iri) == KeysOf(shapeOf, keys, iri) + (if shapeOf(k) == iri then [k] else [])
  {
    assert (keys + [k])[..|keys|] == keys;
  }

  /** Create (or reuse) the node shape of `k`, add `k` as a target and append `fs`. */
  function AddNodeShape(shapeOf: Node -> string, sg: ShapeGraph, k: Node, fs: seq<Fragment>): ShapeGraph {
    var iri := shapeOf(k);
    var d := if iri in sg then sg[iri] else DraftShape([], []);
    sg[iri := DraftShape(if k in d.targets then d.targets else d.targets + [k], d.fragments + fs)]
  }

  /** Node shape `iri` of `sg` is the one the first pass builds from `keys`. */
  ghost predicate FirstPassShape(g: ReasonedGraph, shapeOf: Node -> string, rmap: map<Node, seq<Restriction>>, keys: seq<Node>, sg: ShapeGraph, iri: string)
    requires forall k :: k in keys ==> k in rmap
    requires iri in sg
  {
    && sg[iri].targets == KeysOf(shapeOf, keys, iri)
    && |sg[iri].targets| > 0
    && sg[iri].fragments == FragmentsOf(g, rmap, KeysOf(shapeOf, keys, iri))
  }

  /** `sg` is what the first pass builds from `keys`. */
  ghost predicate IsFirstPass(g: ReasonedGraph, shapeOf: Node -> string, rmap: map<Node, seq<Restriction>>, keys: seq<Node>, sg: ShapeGraph)
    requires forall k :: k in keys ==> k in rmap
  {
    && (forall k :: k in keys ==> shapeOf(k) in sg)
    && (forall iri :: iri in sg ==> FirstPassShape(g, shapeOf, rmap, keys, sg, iri))
  }

  /**
   * The first loop of generate, over the keys in iteration order: every key
   * gets a node shape, every node shape targets exactly the keys sharing its
   * IRI (at least one) and holds one fragment per restriction of those keys,
   * key after key.
   */
  function RestrictionShapes(g: ReasonedGraph, shapeOf: Node -> string, rmap: map<Node, seq<Restriction>>, keys: seq<Node>): (sg: ShapeGraph)
    requires forall k :: k in keys ==> k in rmap
    requires Distinct(keys)
    ensures IsFirstPass(g, shapeOf, rmap, keys, sg)
  {
    if |keys| == 0 then map[]
    else
      var prefix := keys[..|keys| - 1];
      var last := keys[|keys| - 1];
      var sg := RestrictionShapes(g, shapeOf, rmap, prefix);
      RestrictionShapesLast(g, shapeOf, rmap, keys, sg);
      AddNodeShape(shapeOf, sg, last, RestrictionFragments(g, rmap[last]))
  }

  lemma RestrictionShapesLast(g: ReasonedGraph, shapeOf: Node -> string, rmap: map<Node, seq<Restriction>>, keys: seq<Node>, sg: ShapeGraph)
    requires |keys| > 0 && Distinct(keys)
    requires forall k :: k in keys ==> k in rmap
    requires IsFirstPass(g, shapeOf, rmap, keys[..|keys| - 1], sg)
    ensures IsFirstPass(g, shapeOf, rmap, keys, AddNodeShape(shapeOf, sg, keys[|keys| - 1], RestrictionFragments(g, rmap[keys[|keys| - 1]])))
  {
    var prefix := keys[..|keys| - 1];
    var last := keys[|keys| - 1];
    assert keys == prefix + [last];
    RestrictionShapesStep(g, shapeOf, rmap, prefix, last, sg);
  }

  lemma RestrictionShapesStep(g: ReasonedGraph, shapeOf: Node -> string, rmap: map<Node, seq<Restriction>>, prefix: seq<Node>, last: Node, sg: ShapeGraph)
    requires forall k :: k in prefix ==> k in rmap
    requires last in rmap && last !in prefix
    requires IsFirstPass(g, shapeOf, rmap, prefix, sg)
    ensures IsFirstPass(g, shapeOf, rmap, prefix + [last], AddNodeShape(shapeOf, sg, last, RestrictionFragments(g, rmap[last])))
  {
    var sg' := AddNodeShape(shapeOf, sg, last, RestrictionFragments(g, rmap[last]));
    forall iri | iri in sg'
      ensures FirstPassShape(g, shapeOf, rmap, prefix + [last], sg', iri)
    {
      assert iri in sg || iri == shapeOf(last);
      RestrictionShapesStepAt(g, shapeOf, rmap, prefix, last, sg, iri);
    }
  }

  /** The step of RestrictionShapes, for the node shape `iri`. */
  lemma RestrictionShapesStepAt(g: ReasonedGraph, shapeOf: Node -> string, rmap: map<Node, seq<Restriction>>, prefix: seq<Node>, last: Node, sg: ShapeGraph, iri: string)
    requires forall k :: k in prefix ==> k in rmap
    requires last in rmap && last !in prefix
    requires forall k :: k in prefix ==> shapeOf(k) in sg
    requires iri in sg ==> FirstPassShape(g, shapeOf, rmap, prefix, sg, iri)
    requires iri in sg || iri == shapeOf(last)
    ensures FirstPassShape(g, shapeOf, rmap, prefix + [last], AddNodeShape(shapeOf, sg, last, RestrictionFragments(g, rmap[last])), iri)
  {
    KeysOfSnoc(shapeOf, prefix, last, iri);
    var before := KeysOf(shapeOf, prefix, iri);
    if iri == shapeOf(last) {
      if iri !in sg {
        NoKeysOf(shapeOf, prefix, iri);
      }
      assert last !in before;
      FragmentsOfSnoc(g, rmap, before, last);
    }
  }

  lemma NoKeysOf(shapeOf: Node -> string, ks: seq<Node>, iri: string)
    requires forall k :: k in ks ==> shapeOf(k) != iri
    ensures KeysOf(shapeOf, ks, iri) == []
  {
  }

  lemma FragmentsOfSnoc(g: ReasonedGraph, rmap: map<Node, seq<Restriction>>, ks: seq<Node>, k: Node)
    requires forall x :: x in ks ==> x in rmap
    requires k in rmap
    ensures FragmentsOf(g, rmap, ks + [k]) == FragmentsOf(g, rmap, ks) + RestrictionFragments(g, rmap[k])
  {
    assert (ks + [k])[..|ks|] == ks;
  }

  /** With non-empty restriction lists, every first-pass node shape has a fragment. */
  lemma RestrictionShapesNonEmpty(g: ReasonedGraph, shapeOf: Node -> string, rmap: map<Node, seq<Restriction>>, keys: seq<Node>)
    requires forall k :: k in keys ==> k in rmap && |rmap[k]| > 0
    requires Distinct(keys)
    ensures var sg := RestrictionShapes(g, shapeOf, rmap, keys);
      forall iri :: iri in sg ==> |sg[iri].fragments| > 0
  {
    var sg := RestrictionShapes(g, shapeOf, rmap, keys);
    forall iri | iri in sg
      ensures |sg[iri].fragments| > 0
    {
      assert FirstPassShape(g, shapeOf, rmap, keys, sg, iri);
      FragmentsOfNonEmpty(g, rmap, KeysOf(shapeOf, keys, iri));
    }
  }

  lemma {:induction false} FragmentsOfNonEmpty(g: ReasonedGraph, rmap: map<Node, seq<Restriction>>, ks: seq<Node>)
    requires forall k :: k in ks ==> k in rmap && |rmap[k]| > 0
    requires |ks| > 0
    ensures |FragmentsOf(g, rmap, ks)| > 0
  {
    assert ks[|ks| - 1] in ks;
  }

  // ---------------------------------------------------------------------
  // Second pass: domain/range fallback
  // ---------------------------------------------------------------------

  /** The node shape already has a property shape with path `p` (the ASK query). */
  predicate HasPath(fs: seq<Fragment>, p: Node) {
    exists i :: 0 <= i < |fs| && fs[i].path == p
  }

  /** Statement `s` = (p, d) yields a fallback for class `k` unless `p` is already covered. */
  predicate Qualifies(g: ReasonedGraph, k: Node, s: (Node, Node)) {
    !BuiltIn(s.0) && g.subClassOf(k, s.1) && FallbackFragment(g, s.0).Some?
  }

  /**
   * Fragment `fs[j]` is a legitimate fallback for node shape `iri`: its path
   * is not built in and not on any earlier fragment, some target of the
   * shape is a subclass of a declared domain of the path, and it is the
   * fallback fragment of its path.
   */
  ghost predicate Justified(g: ReasonedGraph, shapeOf: Node -> string, keys: seq<Node>, iri: string, fs: seq<Fragment>, j: int)
    requires 0 <= j < |fs|
  {
    && !BuiltIn(fs[j].path)
    && FallbackFragment(g, fs[j].path) == Some(fs[j])
    && (forall i :: 0 <= i < j ==> fs[i].path != fs[j].path)
    && exists k, d :: k in keys && shapeOf(k) == iri && (fs[j].path, d) in g.domains && g.subClassOf(k, d)
  }

  /** `a` is `b` with only justified fallback fragments appended. */
  ghost predicate ExtendsShape(g: ReasonedGraph, shapeOf: Node -> string, keys: seq<Node>, iri: string, b: DraftShape, a: DraftShape) {
    && a.targets == b.targets
    && |b.fragments| <= |a.fragments|
    && a.fragments[..|b.fragments|] == b.fragments
    && forall j :: |b.fragments| <= j < |a.fragments| ==> Justified(g, shapeOf, keys, iri, a.fragments, j)
  }

  ghost predicate Extends(g: ReasonedGraph, shapeOf: Node -> string, keys: seq<Node>, before: ShapeGraph, after: ShapeGraph) {
    && after.Keys == before.Keys
    && forall iri :: iri in before ==> ExtendsShape(g, shapeOf, keys, iri, before[iri], after[iri])
  }

  lemma JustifiedInLonger(g: ReasonedGraph, shapeOf: Node -> string, keys: seq<Node>, iri: string, fs: seq<Fragment>, gs: seq<Fragment>, j: int)
    requires 0 <= j < |fs| <= |gs| && gs[..|fs|] == fs
    requires Justified(g, shapeOf, keys, iri, fs, j)
    ensures Justified(g, shapeOf, keys, iri, gs, j)
  {
    assert gs[j] == fs[j];
    assert forall i :: 0 <= i < j ==> gs[i] == fs[i];
  }

  lemma ExtendsTransitive(g: ReasonedGraph, shapeOf: Node -> string, keys: seq<Node>, a: ShapeGraph, b: ShapeGraph, c: ShapeGraph)
    requires Extends(g, shapeOf, keys, a, b) && Extends(g, shapeOf, keys, b, c)
    ensures Extends(g, shapeOf, keys, a, c)
  {
    forall iri | iri in a
      ensures ExtendsShape(g, shapeOf, keys, iri, a[iri], c[iri])
    {
      assert ExtendsShape(g, shapeOf, keys, iri, a[iri], b[iri]);
      assert ExtendsShape(g, shapeOf, keys, iri, b[iri], c[iri]);
      var fa, fb, fc := a[iri].fragments, b[iri].fragments, c[iri].fragments;
      assert fc[..|fa|] == fc[..|fb|][..|fa|];
      forall j | |fa| <= j < |fc|
        ensures Justified(g, shapeOf, keys, iri, fc, j)
      {
        if j < |fb| {
          JustifiedInLonger(g, shapeOf, keys, iri, fb, fc, j);
        }
      }
    }
  }

  lemma HasPathInLonger(fs: seq<Fragment>, gs: seq<Fragment>, p: Node)
    requires |fs| <= |gs| && gs[..|fs|] == fs
    requires HasPath(fs, p)
    ensures HasPath(gs, p)
  {
    var i :| 0 <= i < |fs| && fs[i].path == p;
    assert gs[i] == fs[i];
  }

  /** One domain statement for one key. */
  function FallbackStep(g: ReasonedGraph, shapeOf: Node -> string, keys: seq<Node>, k: Node, s: (Node, Node), sg: ShapeGraph): (r: ShapeGraph)
    requires k in keys && shapeOf(k) in sg && s in g.domains
    ensures Extends(g, shapeOf, keys, sg, r)
    ensures Qualifies(g, k, s) ==> HasPath(r[shapeOf(k)].fragments, s.0)
    ensures !Qualifies(g, k, s) || HasPath(sg[shapeOf(k)].fragments, s.0) ==> r == sg
  {
    var iri := shapeOf(k);
    var d := sg[iri];
    if BuiltIn(s.0) || !g.subClassOf(k, s.1) || HasPath(d.fragments, s.0) then
      ExtendsReflexive(g, shapeOf, keys, sg);
      sg
    else
      match FallbackFragment(g, s.0)
      case None =>
        ExtendsReflexive(g, shapeOf, keys, sg);
        sg
      case Some(f) =>
        AppendFallback(g, shapeOf, keys, k, s, sg, f);
        var fs := d.fragments + [f];
        assert fs[|d.fragments|].path == s.0;
        sg[iri := d.(fragments := fs)]
  }

  lemma ExtendsReflexive(g: ReasonedGraph, shapeOf: Node -> string, keys: seq<Node>, sg: ShapeGraph)
    ensures Extends(g, shapeOf, keys, sg, sg)
  {
    forall iri | iri in sg
      ensures ExtendsShape(g, shapeOf, keys, iri, sg[iri], sg[iri])
    {
      ExtendsShapeReflexive(g, shapeOf, keys, iri, sg[iri]);
    }
  }

  /** Appending the fallback of a qualifying, uncovered statement is a justified extension. */
  lemma AppendFallback(g: ReasonedGraph, shapeOf: Node -> string, keys: seq<Node>, k: Node, s: (Node, Node), sg: ShapeGraph, f: Fragment)
    requires k in keys && shapeOf(k) in sg && s in g.domains
    requires !BuiltIn(s.0) && g.subClassOf(k, s.1) && !HasPath(sg[shapeOf(k)].fragments, s.0)
    requires FallbackFragment(g, s.0) == Some(f)
    ensures var d := sg[shapeOf(k)];
      Extends(g, shapeOf, keys, sg, sg[shapeOf(k) := d.(fragments := d.fragments + [f])])
  {
    var iri := shapeOf(k);
    var d := sg[iri];
    var r := sg[iri := d.(fragments := d.fragments + [f])];
    JustifiedFallback(g, shapeOf, keys, k, s, d.fragments, f);
    forall other | other in sg
      ensures ExtendsShape(g, shapeOf, keys, other, sg[other], r[other])
    {
      if other == iri {
        ExtendsShapeSnoc(g, shapeOf, keys, iri, d, f);
      } else {
        ExtendsShapeReflexive(g, shapeOf, keys, other, sg[other]);
      }
    }
  }

  lemma JustifiedFallback(g: ReasonedGraph, shapeOf: Node -> string, keys: seq<Node>, k: Node, s: (Node, Node), fs: seq<Fragment>, f: Fragment)
    requires k in keys && s in g.domains
    requires !BuiltIn(s.0) && g.subClassOf(k, s.1) && !HasPath(fs, s.0)
    requires FallbackFragment(g, s.0) == Some(f)
    ensures Justified(g, shapeOf, keys, shapeOf(k), fs + [f], |fs|)
  {
    var fs' := fs + [f];
    assert fs'[|fs|] == f && f.path == s.0;
    assert (f.path, s.1) == s;
    forall i | 0 <= i < |fs|
      ensures fs'[i].path != f.path
    {
      assert fs'[i] == fs[i];
    }
  }

  lemma ExtendsShapeReflexive(g: ReasonedGraph, shapeOf: Node -> string, keys: seq<Node>, iri: string, d: DraftShape)
    ensures ExtendsShape(g, shapeOf, keys, iri, d, d)
  {
    assert d.fragments[..|d.fragments|] == d.fragments;
  }

  lemma ExtendsShapeSnoc(g: ReasonedGraph, shapeOf: Node -> string, keys: seq<Node>, iri: string, d: DraftShape, f: Fragment)
    requires Justified(g, shapeOf, keys, iri, d.fragments + [f], |d.fragments|)
    ensures ExtendsShape(g, shapeOf, keys, iri, d, d.(fragments := d.fragments + [f]))
  {
    assert (d.fragments + [f])[..|d.fragments|] == d.fragments;
  }

  /** The inner loop: every domain statement of `stmts`, in order, for key `k`. */
  function FallbacksFor(g: ReasonedGraph, shapeOf: Node -> string, keys: seq<Node>, k: Node, stmts: seq<(Node, Node)>, sg: ShapeGraph): (r: ShapeGraph)
    requires k in keys && shapeOf(k) in sg
    requires forall s :: s in stmts ==> s in g.domains
    ensures Extends(g, shapeOf, keys, sg, r)
    ensures forall s :: s in stmts && Qualifies(g, k, s) ==> HasPath(r[shapeOf(k)].fragments, s.0)
  {
    if |stmts| == 0 then
      ExtendsReflexive(g, shapeOf, keys, sg);
      sg
    else
      var prefix := stmts[..|stmts| - 1];
      var last := stmts[|stmts| - 1];
      assert forall s :: s in prefix ==> s in stmts;
      var mid := FallbacksFor(g, shapeOf, keys, k, prefix, sg);
      var r := FallbackStep(g, shapeOf, keys, k, last, mid);
      ExtendsTransitive(g, shapeOf, keys, sg, mid, r);
      forall s | s in stmts && Qualifies(g, k, s)
        ensures HasPath(r[shapeOf(k)].fragments, s.0)
      {
        if s != last {
          assert s in prefix;
          HasPathInLonger(mid[shapeOf(k)].fragments, r[shapeOf(k)].fragments, s.0);
        }
      }
      r
  }

  /** The second loop of generate, over the keys in iteration order. */
  function Fallbacks(g: ReasonedGraph, shapeOf: Node -> string, keys: seq<Node>, ks: seq<Node>, sg: ShapeGraph): (r: ShapeGraph)
    requires forall k :: k in ks ==> k in keys && shapeOf(k) in sg
    ensures Extends(g, shapeOf, keys, sg, r)
    ensures forall k, s :: k in ks && s in g.domains && Qualifies(g, k, s) ==> HasPath(r[shapeOf(k)].fragments, s.0)
  {
    if |ks| == 0 then
      ExtendsReflexive(g, shapeOf, keys, sg);
      sg
    else
      var prefix := ks[..|ks| - 1];
      var last := ks[|ks| - 1];
      assert forall k :: k in prefix ==> k in ks;
      var mid := Fallbacks(g, shapeOf, keys, prefix, sg);
      var r := FallbacksFor(g, shapeOf, keys, last, g.domains, mid);
      ExtendsTransitive(g, shapeOf, keys, sg, mid, r);
      forall k, s | k in ks && s in g.domains && Qualifies(g, k, s)
        ensures HasPath(r[shapeOf(k)].fragments, s.0)
      {
        if k != last {
          assert k in prefix;
          HasPathInLonger(mid[shapeOf(k)].fragments, r[shapeOf(k)].fragments, s.0);
        }
      }
      r
  }

  /**
   * generate: a node shape per key (named after the key's short name),
   * targeting exactly the keys that share its name.
   */
  function Generate(g: ReasonedGraph, rmap: map<Node, seq<Restriction>>, keys: seq<Node>): (sg: ShapeGraph)
    requires forall k :: k in keys ==> k in rmap
    requires Distinct(keys)
    ensures forall k :: k in keys ==> ShapeIri(k) in sg
    ensures forall iri :: iri in sg ==> sg[iri].targets == KeysOf(ShapeIri, keys, iri) && |sg[iri].targets| > 0
  {
    var first := RestrictionShapes(g, ShapeIri, rmap, keys);
    var sg := Fallbacks(g, ShapeIri, keys, keys, first);
    FallbacksKeepTargets(g, ShapeIri, rmap, keys, first, sg);
    sg
  }

  /**
   * Each generated node shape holds the fragments of its keys' restrictions,
   * followed by fallback fragments, each for a path not yet on the shape,
   * and every qualifying (key, domain statement) pair ends up covered.
   */
  lemma GenerateContents(g: ReasonedGraph, rmap: map<Node, seq<Restriction>>, keys: seq<Node>)
    requires forall k :: k in keys ==> k in rmap
    requires Distinct(keys)
    ensures var sg := Generate(g, rmap, keys);
      && Extends(g, ShapeIri, keys, RestrictionShapes(g, ShapeIri, rmap, keys), sg)
      && forall k, s :: k in keys && s in g.domains && Qualifies(g, k, s) ==> HasPath(sg[ShapeIri(k)].fragments, s.0)
  {
  }

  lemma FallbacksKeepTargets(g: ReasonedGraph, shapeOf: Node -> string, rmap: map<Node, seq<Restriction>>, keys: seq<Node>, first: ShapeGraph, sg: ShapeGraph)
    requires forall k :: k in keys ==> k in rmap
    requires IsFirstPass(g, shapeOf, rmap, keys, first)
    requires Extends(g, shapeOf, keys, first, sg)
    ensures forall k :: k in keys ==> shapeOf(k) in sg
    ensures forall iri :: iri in sg ==> sg[iri].targets == KeysOf(shapeOf, keys, iri) && |sg[iri].targets| > 0
  {
    forall iri | iri in sg
      ensures sg[iri].targets == KeysOf(shapeOf, keys, iri) && |sg[iri].targets| > 0
    {
      assert FirstPassShape(g, shapeOf, rmap, keys, first, iri);
      assert ExtendsShape(g, shapeOf, keys, iri, first[iri], sg[iri]);
    }
  }
}

=== FILE: typing.dfy ===
/**
 * What a restriction says about the values of its property
 * (OWL2SHACL.getPossibleClasses, getPossibleDatatypes, getPossibleValues and
 * unionOfOrValue). Each answers "absent" (Java null) or a list of classes,
 * datatypes or individuals.
 */
module TypeInference {
  import opened Common
  import opened Rdf
  import opened Ontology

  /** unionOfOrValue: the members of the owl:unionOf list of `v`, or just `v`. */
  function UnionOfOrValue(g: ReasonedGraph, v: Node): (r: seq<Node>)
    ensures g.unionOf(v).None? ==> r == [v]
    ensures g.unionOf(v).Some? ==> r == g.unionOf(v).value
  {
    match g.unionOf(v)
    case Some(members) => members
    case None => [v]
  }

  /** `List.remove(x)`: drop the first occurrence of `x`, if any. */
  function RemoveFirst(s: seq<Node>, x: Node): (r: seq<Node>)
    ensures x !in s ==> r == s
    ensures x in s ==> |r| == |s| - 1
    ensures multiset(r) == multiset(s) - multiset{x}
  {
    if |s| == 0 then []
    else
      assert s == [s[0]] + s[1..];
      if s[0] == x then s[1..]
      else [s[0]] + RemoveFirst(s[1..], x)
  }

  /** The declared ranges of `p` after one owl:Thing and one rdfs:Resource are removed. */
  function RangeCandidates(g: ReasonedGraph, p: Node): (r: seq<Node>)
    ensures multiset(r) == multiset(g.ranges(p)) - multiset{OwlThing} - multiset{RdfsResource}
  {
    RemoveFirst(RemoveFirst(g.ranges(p), OwlThing), RdfsResource)
  }

  /** When the graph lists each range once, neither top class survives as a candidate. */
  lemma RangeCandidatesDropTop(g: ReasonedGraph, p: Node)
    requires Distinct(g.ranges(p))
    ensures OwlThing !in RangeCandidates(g, p) && RdfsResource !in RangeCandidates(g, p)
  {
    var s := g.ranges(p);
    var r := RangeCandidates(g, p);
    DistinctCountAtMostOne(s, OwlThing);
    DistinctCountAtMostOne(s, RdfsResource);
    assert multiset(r)[OwlThing] == 0;
    assert multiset(r)[RdfsResource] == 0;
  }

  lemma {:induction false} DistinctCountAtMostOne(s: seq<Node>, x: Node)
    requires Distinct(s)
    ensures multiset(s)[x] <= 1
  {
    if |s| > 0 {
      assert s == [s[0]] + s[1..];
      DistinctCountAtMostOne(s[1..], x);
      if s[0] == x {
        assert x !in s[1..];
      }
    }
  }

  /** The range fallback shared by classes and datatypes. */
  function FromRange(g: ReasonedGraph, p: Node): (r: Option<seq<Node>>)
    ensures r.Some? <==> |RangeCandidates(g, p)| == 1
    ensures r.Some? ==> r.value == UnionOfOrValue(g, RangeCandidates(g, p)[0])
  {
    var candidates := RangeCandidates(g, p);
    if |candidates| == 0 then None
    else if |candidates| > 1 then None
    else Some(UnionOfOrValue(g, candidates[0]))
  }

  /** The case the source logs as "Intersection for range not yet supported". */
  predicate RangeWarning(g: ReasonedGraph, p: Node) {
    |RangeCandidates(g, p)| > 1
  }

  /** A qualifier the source uses: present and not owl:Thing. */
  predicate Usable(q: Option<Node>) {
    q.Some? && q.value != OwlThing
  }

  /** The first usable qualifier of `qs`, in order of precedence. */
  function FirstQualifier(qs: seq<Option<Node>>): (r: Option<Node>)
    ensures r.None? <==> forall i :: 0 <= i < |qs| ==> !Usable(qs[i])
    ensures r.Some? ==> exists i :: 0 <= i < |qs| && qs[i] == r && Usable(qs[i]) && forall j :: 0 <= j < i ==> !Usable(qs[j])
  {
    if |qs| == 0 then None
    else if Usable(qs[0]) then qs[0]
    else
      var r := FirstQualifier(qs[1..]);
      assert forall i :: 1 <= i < |qs| ==> qs[1..][i - 1] == qs[i];
      r
  }

  /** With two qualifiers, the first usable one is taken. */
  lemma FirstOfTwo(a: Option<Node>, b: Option<Node>)
    ensures FirstQualifier([a, b]) == if Usable(a) then a else if Usable(b) then b else None
  {
    assert [a, b][1..] == [b];
  }

  /**
   * getPossibleClasses: absent unless the property is an owl:ObjectProperty;
   * otherwise owl:someValuesFrom, then owl:onClass (each ignored when absent
   * or owl:Thing), then the single declared range, expanded when it is a union.
   */
  function PossibleClasses(g: ReasonedGraph, r: Restriction): (cs: Option<seq<Node>>)
    ensures !g.hasType(r.onProperty, OwlObjectProperty) ==> cs.None?
    ensures g.hasType(r.onProperty, OwlObjectProperty) && Usable(r.someValuesFrom) ==>
      cs == Some(UnionOfOrValue(g, r.someValuesFrom.value))
    ensures g.hasType(r.onProperty, OwlObjectProperty) && !Usable(r.someValuesFrom) && Usable(r.onClass) ==>
      cs == Some(UnionOfOrValue(g, r.onClass.value))
    ensures g.hasType(r.onProperty, OwlObjectProperty) && !Usable(r.someValuesFrom) && !Usable(r.onClass) ==>
      cs == FromRange(g, r.onProperty)
  {
    if !g.hasType(r.onProperty, OwlObjectProperty) then None
    else
      FirstOfTwo(r.someValuesFrom, r.onClass);
      match FirstQualifier([r.someValuesFrom, r.onClass])
      case Some(q) => Some(UnionOfOrValue(g, q))
      case None => FromRange(g, r.onProperty)
  }

  /**
   * getPossibleDatatypes: the mirror image for owl:DatatypeProperty, with
   * owl:onDataRange taking precedence over owl:someValuesFrom.
   */
  function PossibleDatatypes(g: ReasonedGraph, r: Restriction): (ds: Option<seq<Node>>)
    ensures !g.hasType(r.onProperty, OwlDatatypeProperty) ==> ds.None?
    ensures g.hasType(r.onProperty, OwlDatatypeProperty) && Usable(r.onDataRange) ==>
      ds == Some(UnionOfOrValue(g, r.onDataRange.value))
    ensures g.hasType(r.onProperty, OwlDatatypeProperty) && !Usable(r.onDataRange) && Usable(r.someValuesFrom) ==>
      ds == Some(UnionOfOrValue(g, r.someValuesFrom.value))
    ensures g.hasType(r.onProperty, OwlDatatypeProperty) && !Usable(r.onDataRange) && !Usable(r.someValuesFrom) ==>
      ds == FromRange(g, r.onProperty)
  {
    if !g.hasType(r.onProperty, OwlDatatypeProperty) then None
    else
      FirstOfTwo(r.onDataRange, r.someValuesFrom);
      match FirstQualifier([r.onDataRange, r.someValuesFrom])
      case Some(q) => Some(UnionOfOrValue(g, q))
      case None => FromRange(g, r.onProperty)
  }

  /** An ambiguous declared range yields no class when no qualifier is usable (the logged warning case). */
  lemma AmbiguousRangeGivesNoClass(g: ReasonedGraph, r: Restriction)
    requires !Usable(r.someValuesFrom) && !Usable(r.onClass)
    requires RangeWarning(g, r.onProperty)
    ensures PossibleClasses(g, r).None?
  {
  }

  /** `v` is listed by an owl:oneOf of a class equivalent to `c`. */
  ghost predicate IsEnumerated(g: ReasonedGraph, c: Node, v: Node) {
    exists e, l :: e in g.equivalentClasses(c) && l in g.oneOf(e) && v in l
  }

  /** The individuals listed by an owl:oneOf of a class equivalent to `c`. */
  function EnumeratedIndividuals(g: ReasonedGraph, c: Node): (vs: set<Node>)
    ensures forall v :: v in vs <==> IsEnumerated(g, c, v)
  {
    set e, l, v | e in g.equivalentClasses(c) && l in g.oneOf(e) && v in l :: v
  }

  /**
   * getPossibleValues (without the super-class traversal): only a restriction
   * with owl:someValuesFrom has an enumeration; it is the set of individuals
   * enumerated by classes equivalent to that filler, and absent when empty.
   */
  function PossibleValues(g: ReasonedGraph, r: Restriction): (vs: Option<set<Node>>)
    ensures vs.Some? ==> r.someValuesFrom.Some? && vs.value != {}
    ensures forall v :: (vs.Some? && v in vs.value) <==>
      (r.someValuesFrom.Some? && IsEnumerated(g, r.someValuesFrom.value, v))
  {
    match r.someValuesFrom
    case None => None
    case Some(c) =>
      var values := EnumeratedIndividuals(g, c);
      if values == {} then
        forall v
          ensures !IsEnumerated(g, c, v)
        {
          assert v !in values;
        }
        None
      else Some(values)
  }
}
